=== FILE: README.md ===
# MAX SPORT storefront rules in Dafny

MAX SPORT is a small shoe and sports-goods shop: a public React page
(`TiendaPublica` in `src/App.jsx`) lists the rows of a hosted `productos`
table, and a back office lets the owner add products
(`src/pages/admin/AgregarProducto.jsx`) and list, edit and delete them
(`src/pages/admin/ListaProductos.jsx`). This project models the rules those
three components carry and proves what they guarantee.

What is modelled:

- **The shop catalogue filter** (`productosFiltrados` of the shop). It is a
  chain of `filter` calls: category first (with the sports sub-category),
  then the case-insensitive name search (not under "Artículos Deportivos"),
  then the size and brand filters (not under "Ofertas" nor "2x95"). It is
  proved equal to one filter by a conjunction of the rules. So the list shown
  is an order-preserving selection of the loaded products, holding exactly
  those of the current category that satisfy every rule that applies.
- **The "2x95" pick-two offer.**
  - A click deselects a chosen product, adds another while fewer than two
    are chosen, and is ignored otherwise.
  - The confirmation opens exactly when a click brings the pick to two.
  - Changing category and closing the confirmation empty the pick.
  - The pick never holds more than two products, nor one twice.
  - The savings shown are the two listed prices, a missing one counted as 0,
    minus S/ 95.
- **The product modal.** The carousel index moves with wrap-around, and
  "previous" undoes "next". Every image change resets the zoom. A click on
  the picture steps the zoom 2, 3, 4 and back to unzoomed, keeping
  `zoomLevel` in 1..4 and `zoom` true exactly from level 2 on.
- **Price rules** shared by cards, modal and admin list.
  - An offer counts only when it is truthy (not `null`, not 0) and below the
    price.
  - The payment modal asks for `precio_oferta || precio`.
  - The modal shows the offer only when it counts.
  - The two differ exactly when a stored offer is above the price.
- **The add-product form.**
  - The size buttons are the strings "22" to "43".
  - Pressing a size removes it when chosen, adds it otherwise, and sorts the
    list numerically. This keeps the chosen sizes sorted and free of
    duplicates.
  - Pressing the same size twice gives back the list.
  - A category change clears brand, sub-category and sizes.
  - The inserted record nulls empty sub-category and brand, and nulls the
    sizes exactly for "Artículos Deportivos" and "Ofertas".
  - The image is uploaded as `<random>.<extension>`, the extension being the
    text after the last `.` of the file name.
  - The submit outcome is modelled for every combination of upload and
    insert errors.
- **The admin list.**
  - Its search is an order-preserving selection, and shows everything when
    both criteria are empty.
  - The edit form rejects an offer that is not below the price, with the
    source's message. An empty offer is sent as `null`. Only name, brand,
    sizes and the two prices change.
  - After an accepted update, the offer test behind the "OFERTA" badge
    holds exactly when a non-zero offer was saved. The badge is drawn inside
    the card's picture block, so it shows exactly then on a card with a
    picture and never on a card without one.
  - The size field shows `join(", ")` and parses back with `split(",")` and
    `trim`. This gives back any non-empty list of comma-free, trimmed entries,
    in particular every non-empty list the add form can produce. The add form
    can also store `[]`, which the field shows as empty text; clearing the
    field stores `[""]`, not `[]`.
  - Deleting a product removes the last `/`-segment of each URL in the image
    list `imagenes`, and nothing when that list is null or empty. The add
    form fills only `imagen_url`, so deleting a product it created leaves the
    uploaded image in storage (see Findings).

Modelling choices:

- Prices are whole cents (`int`); the 2x95 price is 9500.
- JavaScript `null` is `Option.None`. Truthiness of a price is `Some(c)` with
  `c != 0`. A comparison with `null` compares with 0.
- Strings are `seq<char>`. `toLowerCase`, `includes`, `split` on one
  character, `join`, `trim`, `split(...).pop()` and `Number`/`toString` on
  decimal numerals are written out in the module `Text`.
- `filter` and `find` are in `Seqs`.
- `Number(...)` coercions are three small helpers without contracts of their
  own: `Products.AsNumber` reads a stored price with `null` as 0,
  `ProductList.NumberOf` reads an edit-form price field with a blank as 0, and
  `Text.DecimalValue` reads a string of decimal digits (its properties are
  stated by `DecimalValueOfNatToString` and `NumeralInjective`).
- The state-changing handlers are methods of classes whose fields are the
  component state: `Storefront.Storefront`, `Storefront.ProductModal` and
  `AddProduct.AddProductForm`.
- Backend calls are replaced by their outcomes, passed as parameters:
  - `Result`/`Option` values for the query, upload and insert errors;
  - a string for the public URL;
  - a string for the random file name.
- The edit-form price fields are `PriceInput` values. `Blank` is a falsy
  field (empty text, `null`, a stored 0). `Entered(c)` is a truthy field that
  `Number` reads as `c` cents; typed "0" is `Entered(0)`, since it is
  non-empty text.
- `handleTallasChange` copies the list and changes the copy with `indexOf`,
  `splice`, `push` and `sort`. Those library calls are modelled as functions
  on sequences. The sort is a stable insertion by numeric value. The form's
  method replaces its size list with the result.

## Model

| member | source | states |
|---|---|---|
| Text.ContainsIffOccurs | src/App.jsx:502 | `includes` holds exactly when the text occurs at some offset |
| Text.Lower | src/App.jsx:502 | `toLowerCase` keeps the length, turns each capital into its small letter (code point plus 32), leaves no capital and keeps every other character |
| Text.LowerIgnoresCase | src/App.jsx:502 | texts that differ only in the case of their letters lower-case to the same text |
| Text.Contains | src/App.jsx:502 | every text includes the empty text, and no text includes a longer one |
| Text.Trim | src/pages/admin/ListaProductos.jsx:211 | the result is a block of the text with only whitespace cut from either end, has no whitespace at either end, and differs from the text exactly when the text had some |
| Text.TrimLeadingBlank | src/pages/admin/ListaProductos.jsx:211 | a blank in front of a piece does not survive `trim` |
| Text.Split | src/pages/admin/ListaProductos.jsx:211 | `split(',')` gives at least one piece and no piece holds the separator |
| Text.Join | src/pages/admin/ListaProductos.jsx:210 | the joined text starts with the first entry and ends with the last |
| Text.JoinSplit | src/pages/admin/ListaProductos.jsx:210-211 | joining the pieces of a split with the separator gives back the text |
| Text.SplitAtFirstSeparator | src/pages/admin/ListaProductos.jsx:211 | a separator after a separator-free prefix ends the first piece |
| Text.LastSegment | src/pages/admin/AgregarProducto.jsx:68 | `split(sep).pop()` is a suffix without the separator, preceded by the separator unless it is the whole text |
| Text.LastSegmentUnique | src/pages/admin/ListaProductos.jsx:39 | those three properties determine `split(sep).pop()` |
| Text.LastSegmentAfter | src/pages/admin/ListaProductos.jsx:39 | whatever precedes the last separator does not matter |
| Text.NatToString | src/pages/admin/AgregarProducto.jsx:22 | `toString` of a non-negative integer is a non-empty run of digits |
| Text.DecimalValueOfNatToString | src/pages/admin/AgregarProducto.jsx:55 | `Number` reads back what `toString` wrote |
| Text.NumeralInjective | src/pages/admin/AgregarProducto.jsx:55 | two numerals with the same `Number` are the same string |
| Seqs.NoDuplicatesIffSingleCounts | src/App.jsx:527-540 | a list has no duplicates exactly when every value occurs at most once in its multiset |
| Seqs.Filter | src/App.jsx:491 | `filter` keeps exactly the accepted elements, each as often as in the input, and never lengthens the list |
| Seqs.FilterIsSubsequence | src/App.jsx:487-515 | `filter` keeps the order of what it keeps |
| Seqs.FilterAll | src/pages/admin/ListaProductos.jsx:93-97 | a filter accepting everything returns the list unchanged |
| Seqs.FilterWhen | src/App.jsx:500-512 | a filter guarded by its control leaves the list alone when the control is off |
| Seqs.FirstIndex | src/pages/admin/AgregarProducto.jsx:47 | `indexOf`: the first matching position, or none when nothing matches |
| Seqs.Find | src/App.jsx:288-289 | `find` returns the first matching element of the list, or none when nothing matches |
| Products.HasOffer | src/App.jsx:147 | an offer counts when it is truthy and below the price; `AmountToPay`, `DisplayedPrice` and the admin badge are stated in its terms |
| Products.AmountToPay | src/App.jsx:146 | the payment amount is the offer when truthy, else the price; on offer it is below the price |
| Products.DisplayedPrice | src/App.jsx:234-246 | a price is shown exactly when it is truthy, never above it, and below it exactly when the offer counts |
| Products.AmountMatchesDisplayIff | src/App.jsx:146-147 | the payment amount equals the shown price unless a truthy offer is above the price |
| Storefront.NameMatchIgnoresCase | src/App.jsx:501-503 | the shop's name search gives the same answer when the name or the search text changes only in letter case |
| Storefront.ByCategory | src/App.jsx:490-498 | keeps exactly the products of the chosen category, and of the chosen sports sub-category once one is chosen, never more than were loaded |
| Storefront.CatalogFilter | src/App.jsx:487-515 | the shop list holds exactly the loaded products that every applicable rule admits and is never longer than the loaded list |
| Storefront.ByCategoryCons | src/App.jsx:490-498 | the category step keeps a product exactly when it is in the current category and sub-category |
| Storefront.CatalogFilterCons | src/App.jsx:500-512 | the whole chain keeps a product exactly when every applicable rule admits it |
| Storefront.CatalogFilterIsFilter | src/App.jsx:487-515 | the filter chain equals one filter by the conjunction of the rules |
| Storefront.CatalogFilterSpec | src/App.jsx:487-515 | the shop shows an order-preserving selection, exactly the products admitted by the rules, all of the current category |
| Storefront.SearchIgnoredForSports | src/App.jsx:500 | the name search has no effect under "Artículos Deportivos" |
| Storefront.SizeAndBrandIgnoredForOffers | src/App.jsx:506-512 | the size and brand filters have no effect under "Ofertas" and "2x95" |
| Storefront.DeselectFacts | src/App.jsx:529 | deselecting keeps order and distinctness and removes exactly one entry |
| Storefront.Pick2x95 | src/App.jsx:527-540 | deselects exactly the clicked id, appends while fewer than two, ignores a third, keeps at most two distinct ids |
| Storefront.OpensConfirmation | src/App.jsx:528-537 | the confirmation opens when a new id is appended to a pick of fewer than two and the pick then holds two |
| Storefront.OpensConfirmationIffReachesTwo | src/App.jsx:531-537 | the confirmation opens exactly when the click brings the pick to two |
| Storefront.ListedPrice | src/App.jsx:291 | the listed price of a picked product: the price when truthy, 0 for a missing product or price |
| Storefront.Savings2x95 | src/App.jsx:346 | the savings plus S/ 95 equal the sum of the two listed prices |
| Storefront.ProductById | src/App.jsx:288-289 | the product found is the first loaded product with the id; none means no product has it |
| Storefront.Storefront.Visible | src/App.jsx:487-515 | the products listed are a selection of the loaded ones, exactly those in view |
| Storefront.Storefront.constructor | src/App.jsx:453-465 | the page opens on "2x95" with no filters, no products and an empty pick |
| Storefront.Storefront.ProductsLoaded | src/App.jsx:471-485 | loading stores the returned rows (none for a `null` result), keeps the old list on error, and touches nothing else |
| Storefront.Storefront.CategoryClick | src/App.jsx:517-525 | switching category clears sub-category, size, brand, search and the pick and closes the menu |
| Storefront.Storefront.ToggleMenu | src/App.jsx:569 | the menu button flips the menu |
| Storefront.Storefront.SelectSubcategory | src/App.jsx:836 | a sub-category button selects that sub-category |
| Storefront.Storefront.SetSearchTerm | src/App.jsx:748 | the search box sets the search text |
| Storefront.Storefront.SetSizeFilter | src/App.jsx:942 | the size select sets the size filter |
| Storefront.Storefront.SetBrandFilter | src/App.jsx:952 | the brand select sets the brand filter |
| Storefront.Storefront.Select2x95 | src/App.jsx:527-540 | the pick follows `Pick2x95`, the confirmation opens when it reaches two, and the pick stays within two distinct ids |
| Storefront.Storefront.Close2x95 | src/App.jsx:1035-1038 | closing the confirmation hides it and empties the pick |
| Storefront.Storefront.PickedProducts | src/App.jsx:288-289 | each of the two products shown is a loaded product with the picked id, and is missing exactly when no loaded product has that id |
| Storefront.ImagesOf | src/App.jsx:43 | the gallery when the product has one, else the single image URL |
| Storefront.NextIndex | src/App.jsx:46 | the next image index stays in range and wraps from the last to the first |
| Storefront.PreviousIndex | src/App.jsx:51 | the previous image index stays in range and wraps from the first to the last |
| Storefront.PreviousAfterNext | src/App.jsx:45-53 | "previous" after "next" returns to the same image |
| Storefront.NextAfterPrevious | src/App.jsx:45-53 | "next" after "previous" returns to the same image |
| Storefront.ZoomAfterClick | src/App.jsx:68-78 | a click keeps the level in 1..4 with zoom exactly from 2 on, steps the level up, and unzooms exactly from level 4 |
| Storefront.ZoomCycle | src/App.jsx:63-79 | four clicks go 2, 3, 4 and back to unzoomed |
| Storefront.ProductModal.constructor | src/App.jsx:33-43 | the modal opens on the first image, unzoomed |
| Storefront.ProductModal.ResetZoom | src/App.jsx:55-61 | unzoomed, level 1, no pan, origin at the centre; the image is kept |
| Storefront.ProductModal.NextImage | src/App.jsx:45-48 | moves to the next image with wrap-around and resets the zoom |
| Storefront.ProductModal.PreviousImage | src/App.jsx:50-53 | moves to the previous image with wrap-around and resets the zoom |
| Storefront.ProductModal.ShowImage | src/App.jsx:199 | a dot click shows that image and resets the zoom |
| Storefront.ProductModal.ImageClick | src/App.jsx:63-79 | the zoom follows `ZoomAfterClick`, zooming around the clicked point, and the invariant is kept |
| AddProduct.SizeOptionsFacts | src/pages/admin/AgregarProducto.jsx:22 | the size buttons are "22" to "43", 22 numerals, strictly ascending |
| AddProduct.InsertBySize | src/pages/admin/AgregarProducto.jsx:55 | inserting into a sorted list keeps it sorted and adds exactly the entry |
| AddProduct.SortBySize | src/pages/admin/AgregarProducto.jsx:55 | the numeric sort yields a sorted permutation |
| AddProduct.SortedNumeralsUnique | src/pages/admin/AgregarProducto.jsx:55 | two sorted arrangements of the same numerals are equal |
| AddProduct.SortSorted | src/pages/admin/AgregarProducto.jsx:55 | sorting a sorted list of numerals changes nothing |
| AddProduct.SortKeepsNumerals | src/pages/admin/AgregarProducto.jsx:55 | sorting numerals gives numerals |
| AddProduct.SortedDistinctAscending | src/pages/admin/AgregarProducto.jsx:55 | a sorted list of distinct numerals is strictly ascending |
| AddProduct.RemoveAt | src/pages/admin/AgregarProducto.jsx:50 | `splice(index, 1)` removes one occurrence of the entry at `index` |
| AddProduct.Spliced | src/pages/admin/AgregarProducto.jsx:46-53 | the pressed size loses one occurrence when present and gains one otherwise |
| AddProduct.ToggledSizes | src/pages/admin/AgregarProducto.jsx:45-56 | the new size list is sorted, and is the old one minus the pressed size when present, plus it otherwise |
| AddProduct.ToggledCollection | src/pages/admin/AgregarProducto.jsx:45-53 | adding or removing one occurrence leaves other values alone and keeps a duplicate-free list duplicate-free |
| AddProduct.ToggleMembership | src/pages/admin/AgregarProducto.jsx:45-53 | other sizes keep their membership; without duplicates the pressed size flips and no duplicate appears |
| AddProduct.ToggleKeepsNumerals | src/pages/admin/AgregarProducto.jsx:45-55 | toggling a numeral keeps a list of numerals |
| AddProduct.ToggleTwice | src/pages/admin/AgregarProducto.jsx:45-55 | pressing the same size twice yields the sorted original |
| AddProduct.ToggleTwiceSorted | src/pages/admin/AgregarProducto.jsx:45-55 | pressing the same size twice on a sorted list yields the list itself |
| AddProduct.ShowsBrandAndSizes | src/pages/admin/AgregarProducto.jsx:127-128 | brand and sizes are shown for every category except sports articles and offers |
| AddProduct.BrandAndSizesForShoes | src/pages/admin/AgregarProducto.jsx:127-128 | among the form's categories, brand and sizes are shown exactly for Hombre, Mujer and Niños |
| AddProduct.OrNull | src/pages/admin/AgregarProducto.jsx:93-94 | an empty text becomes null and any other text is kept |
| AddProduct.NewProductRecord | src/pages/admin/AgregarProducto.jsx:90-97 | empty sub-category and brand become null; sizes are null exactly for sports articles and offers |
| AddProduct.Extension | src/pages/admin/AgregarProducto.jsx:68 | the extension is the text after the last `.`, or the whole name when there is none |
| AddProduct.UploadPath | src/pages/admin/AgregarProducto.jsx:69-70 | the upload path starts with the random part and a `.` |
| AddProduct.UploadKeepsExtension | src/pages/admin/AgregarProducto.jsx:68-70 | the uploaded object has the extension of the chosen file |
| AddProduct.AddProductForm.constructor | src/pages/admin/AgregarProducto.jsx:29-36 | the form starts empty on "Hombre" with no notice |
| AddProduct.AddProductForm.SetName | src/pages/admin/AgregarProducto.jsx:176 | typing a name changes only the name |
| AddProduct.AddProductForm.SetSubcategory | src/pages/admin/AgregarProducto.jsx:205 | choosing a sub-category changes only the sub-category |
| AddProduct.AddProductForm.SetBrand | src/pages/admin/AgregarProducto.jsx:223 | choosing a brand changes only the brand |
| AddProduct.AddProductForm.SelectImage | src/pages/admin/AgregarProducto.jsx:38-43 | a chosen file replaces the image; an empty choice keeps it |
| AddProduct.AddProductForm.ToggleSize | src/pages/admin/AgregarProducto.jsx:45-56 | the size list becomes `ToggledSizes`, the pressed size flips, and the list stays sorted, distinct numerals |
| AddProduct.AddProductForm.ChangeCategory | src/pages/admin/AgregarProducto.jsx:188 | a category change clears brand, sub-category and sizes and keeps name and image |
| AddProduct.AddProductForm.Submit | src/pages/admin/AgregarProducto.jsx:58-125 | uploads under `UploadPath` when there is an image, inserts `NewProductRecord` unless the upload failed, resets the form only on success, otherwise reports the error |
| ProductList.AdminFilter | src/pages/admin/ListaProductos.jsx:93-97 | the admin list shows an order-preserving selection, exactly the products whose name contains the search and whose category matches when one is chosen |
| ProductList.ListedByIgnoresCase | src/pages/admin/ListaProductos.jsx:94 | the admin search gives the same answer when the search text changes only in letter case |
| ProductList.AdminFilterNoCriteria | src/pages/admin/ListaProductos.jsx:94-95 | with no search text and no category every product is shown |
| ProductList.InputOf | src/pages/admin/ListaProductos.jsx:309 | a stored price enters the edit form as blank exactly when it is falsy |
| ProductList.StartEditing | src/pages/admin/ListaProductos.jsx:309 | the edit form starts from the row's name, brand, sizes and prices |
| ProductList.BuildUpdate | src/pages/admin/ListaProductos.jsx:63-73 | rejects exactly a non-zero offer not below the price, with the source's message; otherwise sends the five fields, an empty offer as null |
| ProductList.ApplyUpdate | src/pages/admin/ListaProductos.jsx:75-78 | the update changes the five sent columns and leaves id, category, sub-category and images alone |
| ProductList.HasCardImage | src/pages/admin/ListaProductos.jsx:268 | a card has a picture block when its first gallery URL or its single image URL is non-empty text |
| ProductList.ShowsOfferBadge | src/pages/admin/ListaProductos.jsx:268-279 | the "OFERTA" badge needs both the picture block and the offer test |
| ProductList.AcceptedUpdateKeepsPricesConsistent | src/pages/admin/ListaProductos.jsx:268-279 | after an accepted update the offer test holds exactly for a non-zero offer, the badge shows exactly for a non-zero offer on a card with a picture, and the payment amount is the shown price |
| ProductList.SaveUnchanged | src/pages/admin/ListaProductos.jsx:63-73 | saving an untouched form succeeds exactly when the stored offer is falsy or below the price, and keeps the offer test and the badge |
| ProductList.SizesText | src/pages/admin/ListaProductos.jsx:210 | the field text starts with the first size and ends with the last, and splits back at ',' into one piece per size when no size holds a comma |
| ProductList.ParseSizes | src/pages/admin/ListaProductos.jsx:211 | the parsed sizes are at least one, each trimmed and comma-free |
| ProductList.ParseClearedField | src/pages/admin/ListaProductos.jsx:211 | clearing the size field stores one empty size |
| ProductList.SplitJoined | src/pages/admin/ListaProductos.jsx:210-211 | splitting the shown text at ',' gives the first size, then each further size behind a blank |
| ProductList.ParseSizesText | src/pages/admin/ListaProductos.jsx:210-211 | parsing the shown text gives back a non-empty list of trimmed, comma-free sizes |
| ProductList.ChosenSizesSurviveEditing | src/pages/admin/ListaProductos.jsx:210-211 | every non-empty size list the add form produces survives the size field unchanged |
| ProductList.StorageKeys | src/pages/admin/ListaProductos.jsx:38-40 | one key per URL in order, each the last `/`-segment; nothing to remove without images |
| ProductList.StorageKeyOfObjectUrl | src/pages/admin/ListaProductos.jsx:39 | a URL `base/name` listed in `imagenes` is removed under the key `name` |
| ProductList.InsertedRow | src/pages/admin/AgregarProducto.jsx:89-97 | the row the add form inserts holds the sent columns, and null in the image list and both prices |
| ProductList.DeletedKeys | src/pages/admin/ListaProductos.jsx:316 | the delete button hands over only the image list: one key per URL, each the URL's last `/`-segment, nothing when the list is null or empty |
| ProductList.DeleteLeavesUploadedImage | src/pages/admin/ListaProductos.jsx:316 | a product created by the add form with an image is deleted without removing any storage object |
| ProductList.DeletedKeysIntended | src/pages/admin/ListaProductos.jsx:268 | corrected rule: the keys of the image list when it is non-empty; when it is null or empty, the last `/`-segment of `imagen_url` if set, else nothing; keys without '/' |
| ProductList.IntendedDeleteRemovesUploadedImage | src/pages/admin/AgregarProducto.jsx:66-83 | under the corrected rule the image uploaded by the add form is removed under the path it was uploaded to |

## Findings

| source | as written | input that shows it | evidently intended | confidence | as-written member | corrected member |
|---|---|---|---|---|---|---|
| src/pages/admin/ListaProductos.jsx:316 | the delete button passes only `producto.imagenes`, and `eliminarProducto` removes nothing when that is null or empty (line 38) | a product saved by the add form with an image: its insert (AgregarProducto.jsx:89-97) writes `imagen_url` but never `imagenes`, so the uploaded object stays in storage | also remove the object behind `imagen_url`, the image the card shows when there is no gallery (line 268) | medium, not executed; `imagenes` could be filled by code outside this model | ProductList.DeleteLeavesUploadedImage | ProductList.IntendedDeleteRemovesUploadedImage |

## Left out

- Every backend call is left out: the queries, insert, update and delete, the
  storage upload and removal, `getPublicUrl`, and auth. Their outcomes are
  parameters. The reload after an update or delete is not modelled.
- The dashboard and login pages are not part of this model. They hold only
  auth, counts and navigation.
- Dragging, panning and touch handling are left out: floating-point pixel
  arithmetic on DOM events. `panPosition` is only reset.
- ProductList.DeletedKeysIntended: falls back to `imagen_url` only when the
  image list is null or empty. The card's picture (ListaProductos.jsx:268)
  also falls back when the list's first URL is the empty text; such a list
  still yields its own keys here, since its URLs are what the product stores.
- Storefront.ProductModal.ImageClick: takes the click point as percentages
  of the picture. Computing them from the bounding rectangle is left out.
- Storefront.ProductModal.NextImage: requires at least one image. The
  source shows the arrows only for two or more images and only unzoomed;
  with no image its `% 0` would give `NaN`.
- Storefront.ProductModal.PreviousImage: requires at least one image, for
  the same reason as `NextImage`: the arrows appear only for two or more
  images, and with none its `% 0` would give `NaN`.
- `document.body.style.overflow` is left out, and so are WhatsApp message
  composition, `window.open`, `toFixed(2)`, `setTimeout`, `confirm`,
  navigation, rendering and styling.
- Loading flags and async sequencing are left out.
- `Math.random()` is a nondeterministic source. The random file name is a
  parameter.
- `eliminarProducto` itself is not modelled. The confirmation, the removal
  and the delete are backend calls; only the storage keys are derived.
- `setMensaje` banners of the admin list are not modelled. They report
  backend outcomes.
- Product names are never null in this model: `nombre` is a `string`. The
  add form always sends one, and on a null name the source's `toLowerCase`
  (src/App.jsx:502, src/pages/admin/ListaProductos.jsx:94) would throw,
  which is not modelled.
- Text.Lower: `toLowerCase` is modelled for ASCII and the Latin-1 capitals
  only. That covers Spanish names; other scripts are left unchanged.
- ProductList.BuildUpdate: the price fields are abstracted as
  `PriceInput`. Parsing typed text into a number is not modelled, and a
  non-numeric text, which `Number` reads as `NaN`, is not represented.
- AddProduct.AddProductForm.ToggleSize: requires the pressed size to be a
  numeral. The only sizes offered are those of `SIZE_OPTIONS`, which are.
- Brand options per category (`marcasPorCategoria`) and the sports
  sub-category list are left out. They are constants the form only
  displays.
- The `required` attributes of the form inputs are left out. They are
  browser-side validation, not logic of the page.

=== FILE: addproduct.dfy ===
/** The back-office "Agregar Producto" form: the size buttons and the sorted
    size list they edit, the category-dependent fields, the record inserted
    into `productos` and the name the product image is uploaded under. */
module AddProduct {
  import opened Common
  import opened Text
  import opened Seqs
  import opened Products

  // ---------------------------------------------------------------------------
  // Size catalogue
  // ---------------------------------------------------------------------------

  /** `tallasDisponibles` (the storefront's `tallas` is the same list): the
      strings of 22 + i for i in 0..21. */
  const SIZE_OPTIONS: seq<string> := seq(22, i requires 0 <= i < 22 => NatToString(i + 22))

  /** The size buttons are "22" through "43", 22 of them, in ascending order,
      each the canonical numeral of its value. */
  lemma SizeOptionsFacts()
    ensures |SIZE_OPTIONS| == 22
    ensures SIZE_OPTIONS[0] == "22" && SIZE_OPTIONS[21] == "43"
    ensures forall i :: 0 <= i < 22 ==>
      IsNumeral(SIZE_OPTIONS[i]) && DecimalValue(SIZE_OPTIONS[i]) == 22 + i
    ensures StrictlyAscending(SIZE_OPTIONS)
  {
    assert NatToString(2) == "2" && NatToString(4) == "4" && NatToString(3) == "3";
    forall i | 0 <= i < 22
      ensures IsNumeral(SIZE_OPTIONS[i]) && DecimalValue(SIZE_OPTIONS[i]) == 22 + i
    {
      NatToStringIsNumeral(i + 22);
    }
  }

  // ---------------------------------------------------------------------------
  // Numeric order on size strings
  // ---------------------------------------------------------------------------

  /** Ordered by `Number(a) - Number(b)`, ties allowed. */
  predicate SortedBySize(s: seq<string>) {
    forall i, j :: 0 <= i < j < |s| ==> DecimalValue(s[i]) <= DecimalValue(s[j])
  }

  /** Ordered by numeric value without ties. */
  predicate StrictlyAscending(s: seq<string>) {
    forall i, j :: 0 <= i < j < |s| ==> DecimalValue(s[i]) < DecimalValue(s[j])
  }

  predicate AllNumerals(s: seq<string>) {
    forall t :: t in s ==> IsNumeral(t)
  }

  /** An entry no larger than everything in a sorted list may be put in
      front of it. */
  lemma SortedCons(x: string, rest: seq<string>)
    requires SortedBySize(rest)
    requires forall y :: y in rest ==> DecimalValue(x) <= DecimalValue(y)
    ensures SortedBySize([x] + rest)
  {
    var r := [x] + rest;
    forall i, j | 0 <= i < j < |r|
      ensures DecimalValue(r[i]) <= DecimalValue(r[j])
    {
      assert r[j] == rest[j - 1];
      if i > 0 {
        assert r[i] == rest[i - 1];
      }
    }
  }

  /** Inserting `t` after every entry not larger than it. */
  function InsertBySize(t: string, s: seq<string>): (r: seq<string>)
    requires SortedBySize(s)
    ensures SortedBySize(r)
    ensures multiset(r) == multiset(s) + multiset{t}
    decreases |s|
  {
    if s == [] then [t]
    else if DecimalValue(t) < DecimalValue(s[0]) then
      SortedCons(t, s);
      [t] + s
    else
      var rest := InsertBySize(t, s[1..]);
      InsertTailBound(t, s, rest);
      SortedCons(s[0], rest);
      assert s == [s[0]] + s[1..];
      [s[0]] + rest
  }

  /** The head of a sorted list bounds whatever the insertion into its tail
      produces, when the inserted entry is not smaller. */
  lemma InsertTailBound(t: string, s: seq<string>, rest: seq<string>)
    requires s != [] && SortedBySize(s) && DecimalValue(s[0]) <= DecimalValue(t)
    requires multiset(rest) == multiset(s[1..]) + multiset{t}
    ensures forall y :: y in rest ==> DecimalValue(s[0]) <= DecimalValue(y)
  {
    forall y | y in rest
      ensures DecimalValue(s[0]) <= DecimalValue(y)
    {
      assert y in multiset(rest);
      if y != t {
        assert y in multiset(s[1..]);
        var k :| 0 <= k < |s[1..]| && s[1..][k] == y;
        assert s[k + 1] == y;
      }
    }
  }

  /** `s.sort((a, b) => Number(a) - Number(b))`: a stable insertion of each
      entry, left to right, into the sorted prefix. */
  function SortBySize(s: seq<string>): (r: seq<string>)
    ensures SortedBySize(r)
    ensures multiset(r) == multiset(s)
    decreases |s|
  {
    if s == [] then []
    else
      assert s == s[..|s| - 1] + [s[|s| - 1]];
      InsertBySize(s[|s| - 1], SortBySize(s[..|s| - 1]))
  }

  /** The head of a sorted list is not larger than anything in it. */
  lemma SortedHeadIsLeast(a: seq<string>, x: string)
    requires SortedBySize(a) && x in a
    ensures DecimalValue(a[0]) <= DecimalValue(x)
  {
    var k :| 0 <= k < |a| && a[k] == x;
    if k > 0 {
      assert DecimalValue(a[0]) <= DecimalValue(a[k]);
    }
  }

  /** Two sorted arrangements of the same numerals start alike. */
  lemma SameHead(a: seq<string>, b: seq<string>)
    requires a != [] && SortedBySize(a) && SortedBySize(b) && AllNumerals(a)
    requires multiset(a) == multiset(b)
    ensures b != [] && a[0] == b[0]
  {
    assert a[0] in multiset(b);
    assert b[0] in multiset(a);
    SortedHeadIsLeast(b, a[0]);
    SortedHeadIsLeast(a, b[0]);
    NumeralInjective(a[0], b[0]);
  }

  /** Equal collections with equal heads have equal tails. */
  lemma SameTail(a: seq<string>, b: seq<string>)
    requires a != [] && b != [] && a[0] == b[0] && multiset(a) == multiset(b)
    ensures multiset(a[1..]) == multiset(b[1..])
  {
    assert a == [a[0]] + a[1..];
    assert b == [b[0]] + b[1..];
    assert multiset(a[1..]) == multiset(a) - multiset{a[0]};
    assert multiset(b[1..]) == multiset(b) - multiset{b[0]};
  }

  /** Among numerals the numeric order has no ties, so the sorted arrangement
      of a collection is unique. */
  lemma {:induction false} SortedNumeralsUnique(a: seq<string>, b: seq<string>)
    requires SortedBySize(a) && SortedBySize(b) && AllNumerals(a)
    requires multiset(a) == multiset(b)
    ensures a == b
    decreases |a|
  {
    if a == [] {
      assert |b| == |multiset(b)| == 0;
    } else {
      SameHead(a, b);
      SameTail(a, b);
      assert forall t :: t in a[1..] ==> t in a;
      SortedNumeralsUnique(a[1..], b[1..]);
      assert a == [a[0]] + a[1..] && b == [b[0]] + b[1..];
    }
  }

  /** Sorting an already sorted list of numerals leaves it as it is. */
  lemma SortSorted(s: seq<string>)
    requires SortedBySize(s) && AllNumerals(s)
    ensures SortBySize(s) == s
  {
    SortedNumeralsUnique(s, SortBySize(s));
  }

  /** A sorted list without duplicates of numerals is strictly ascending. */
  lemma SortedDistinctAscending(s: seq<string>)
    requires SortedBySize(s) && NoDuplicates(s) && AllNumerals(s)
    ensures StrictlyAscending(s)
  {
    forall i, j | 0 <= i < j < |s|
      ensures DecimalValue(s[i]) < DecimalValue(s[j])
    {
      if DecimalValue(s[i]) == DecimalValue(s[j]) {
        NumeralInjective(s[i], s[j]);
      }
    }
  }

  // ---------------------------------------------------------------------------
  // Toggling a size
  // ---------------------------------------------------------------------------

  /** `tallas.splice(index, 1)` on a copy. */
  function RemoveAt(s: seq<string>, i: nat): (r: seq<string>)
    requires i < |s|
    ensures multiset(r) == multiset(s) - multiset{s[i]}
  {
    assert s == s[..i] + [s[i]] + s[i + 1..];
    s[..i] + s[i + 1..]
  }

  /** `indexOf` followed by `splice` or `push` on a copy of the list. */
  function Spliced(tallas: seq<string>, talla: string): (r: seq<string>)
    ensures talla in tallas ==> multiset(r) == multiset(tallas) - multiset{talla}
    ensures talla !in tallas ==> multiset(r) == multiset(tallas) + multiset{talla}
  {
    match FirstIndex(tallas, (x: string) => x == talla)
    case Some(i) => RemoveAt(tallas, i)
    case None => tallas + [talla]
  }

  /** `handleTallasChange(talla)`: remove the first occurrence of `talla` when
      present, append it otherwise, then sort numerically. */
  function ToggledSizes(tallas: seq<string>, talla: string): (r: seq<string>)
    ensures SortedBySize(r)
    ensures talla in tallas ==> multiset(r) == multiset(tallas) - multiset{talla}
    ensures talla !in tallas ==> multiset(r) == multiset(tallas) + multiset{talla}
  {
    SortBySize(Spliced(tallas, talla))
  }

  /** Adding or removing one occurrence of `t` leaves every other value's
      membership alone. */
  lemma ToggledCollection<T>(s: seq<T>, r: seq<T>, t: T)
    requires t in s ==> multiset(r) == multiset(s) - multiset{t}
    requires t !in s ==> multiset(r) == multiset(s) + multiset{t}
    ensures forall x :: x != t ==> (x in r <==> x in s)
    ensures NoDuplicates(s) ==> NoDuplicates(r) && (t in r <==> t !in s)
  {
    forall x | x != t
      ensures x in r <==> x in s
    {
      assert x in r <==> multiset(r)[x] > 0;
      assert x in s <==> multiset(s)[x] > 0;
    }
    if NoDuplicates(s) {
      NoDuplicatesIffSingleCounts(s);
      if t in s {
        forall x
          ensures multiset(r)[x] <= 1
        {
          assert multiset(s)[x] <= 1;
        }
        assert multiset(r)[t] == 0;
        assert t !in r;
      } else {
        assert multiset(s)[t] == 0;
        assert multiset(r)[t] == 1;
        assert t in r;
        forall x
          ensures multiset(r)[x] <= 1
        {
          assert multiset(s)[x] <= 1;
        }
      }
      NoDuplicatesIffSingleCounts(r);
    }
  }

  /** Every other size keeps its membership; in a list without duplicates
      the size pressed changes membership, and the list stays without
      duplicates. */
  lemma ToggleMembership(tallas: seq<string>, talla: string)
    ensures forall x :: x != talla ==> (x in ToggledSizes(tallas, talla) <==> x in tallas)
    ensures NoDuplicates(tallas) ==>
      (talla in ToggledSizes(tallas, talla) <==> talla !in tallas)
      && NoDuplicates(ToggledSizes(tallas, talla))
  {
    ToggledCollection(tallas, ToggledSizes(tallas, talla), talla);
  }

  /** Toggling a numeral keeps a list of numerals. */
  lemma ToggleKeepsNumerals(tallas: seq<string>, talla: string)
    requires AllNumerals(tallas) && IsNumeral(talla)
    ensures AllNumerals(ToggledSizes(tallas, talla))
  {
    ToggleMembership(tallas, talla);
  }

  /** The sorted form of a list of numerals is again a list of numerals. */
  lemma SortKeepsNumerals(s: seq<string>)
    requires AllNumerals(s)
    ensures AllNumerals(SortBySize(s))
  {
    var sorted := SortBySize(s);
    forall t | t in sorted
      ensures IsNumeral(t)
    {
      assert t in multiset(s);
    }
  }

  /** Pressing the same size twice gives back the original list sorted. */
  lemma ToggleTwice(tallas: seq<string>, talla: string)
    requires NoDuplicates(tallas) && AllNumerals(tallas)
    ensures ToggledSizes(ToggledSizes(tallas, talla), talla) == SortBySize(tallas)
  {
    var once := ToggledSizes(tallas, talla);
    var twice := ToggledSizes(once, talla);
    ToggleMembership(tallas, talla);
    assert multiset(twice) == multiset(tallas);
    SortKeepsNumerals(tallas);
    SortedNumeralsUnique(SortBySize(tallas), twice);
  }

  /** ... which is the list itself when it was kept sorted. */
  lemma ToggleTwiceSorted(tallas: seq<string>, talla: string)
    requires NoDuplicates(tallas) && AllNumerals(tallas) && SortedBySize(tallas)
    ensures ToggledSizes(ToggledSizes(tallas, talla), talla) == tallas
  {
    ToggleTwice(tallas, talla);
    SortSorted(tallas);
  }

  // ---------------------------------------------------------------------------
  // Category-dependent fields
  // ---------------------------------------------------------------------------

  /** The category choices of the form. */
  const CATEGORY_OPTIONS: seq<string> := ["Hombre", "Mujer", "Niños", DEPORTIVOS, OFERTAS]

  /** `mostrarMarca` and `mostrarTallas` (the same test). */
  predicate ShowsBrandAndSizes(categoria: string) {
    categoria != DEPORTIVOS && categoria != OFERTAS
  }

  /** Among the form's categories the brand and size inputs are shown exactly
      for the shoe categories. */
  lemma BrandAndSizesForShoes()
    ensures forall c :: c in CATEGORY_OPTIONS ==>
      (ShowsBrandAndSizes(c) <==> c == "Hombre" || c == "Mujer" || c == "Niños")
  {
  }

  // ---------------------------------------------------------------------------
  // Form values and the inserted record
  // ---------------------------------------------------------------------------

  datatype ImageFile = ImageFile(name: string)

  datatype FormData = FormData(
    nombre: string,
    categoria: string,
    subcategoria: string,
    marca: string,
    tallas: seq<string>,
    imagen: Option<ImageFile>)

  const EMPTY_FORM: FormData := FormData("", "Hombre", "", "", [], None)

  /** The row sent to `insert`. */
  datatype NewProduct = NewProduct(
    nombre: string,
    categoria: string,
    subcategoria: Option<string>,
    marca: Option<string>,
    tallas: Option<seq<string>>,
    imagenUrl: Option<string>)

  /** `text || null`. */
  function OrNull(text: string): (r: Option<string>)
    ensures r.None? <==> text == ""
    ensures r.Some? ==> r.value == text
  {
    if text == "" then None else Some(text)
  }

  /** The record `handleSubmit` inserts for the form `f` once the image URL is
      known. */
  function NewProductRecord(f: FormData, imagenUrl: Option<string>): (r: NewProduct)
    ensures r.nombre == f.nombre && r.categoria == f.categoria && r.imagenUrl == imagenUrl
    ensures r.subcategoria.None? <==> f.subcategoria == ""
    ensures r.subcategoria.Some? ==> r.subcategoria.value == f.subcategoria
    ensures r.marca.None? <==> f.marca == ""
    ensures r.marca.Some? ==> r.marca.value == f.marca
    ensures r.tallas.None? <==> f.categoria == DEPORTIVOS || f.categoria == OFERTAS
    ensures r.tallas.Some? ==> r.tallas.value == f.tallas
  {
    NewProduct(
      f.nombre,
      f.categoria,
      OrNull(f.subcategoria),
      OrNull(f.marca),
      if ShowsBrandAndSizes(f.categoria) then Some(f.tallas) else None,
      imagenUrl)
  }

  // ---------------------------------------------------------------------------
  // Upload name
  // ---------------------------------------------------------------------------

  /** `name.split('.').pop()`: the text after the last '.', or the whole name
      when it has none. */
  function Extension(name: string): (r: string)
    ensures '.' !in r
    ensures '.' !in name ==> r == name
    ensures '.' in name ==> |r| < |name| && name[|name| - |r| - 1] == '.'
    ensures |r| <= |name| && name[|name| - |r|..] == r
  {
    var r := LastSegment(name, '.');
    assert |r| == |name| ==> r == name;
    r
  }

  /** `${Math.random()}.${fileExt}`, with the random number given as its
      decimal text. */
  function UploadPath(randomName: string, file: ImageFile): (r: string)
    ensures IsPrefix(randomName + ".", r)
  {
    randomName + "." + Extension(file.name)
  }

  /** The uploaded object keeps the extension of the chosen file, whatever the
      random part looks like. */
  lemma UploadKeepsExtension(randomName: string, file: ImageFile)
    ensures Extension(UploadPath(randomName, file)) == Extension(file.name)
  {
    var ext := Extension(file.name);
    assert UploadPath(randomName, file) == randomName + ['.'] + ext;
    LastSegmentAfter(randomName, '.', ext);
  }

  // ---------------------------------------------------------------------------
  // The page
  // ---------------------------------------------------------------------------

  /** The banner above the form. */
  datatype Notice = NoNotice | Saved | Failed(reason: string)

  /** What the page keeps between renders: `formData` and `mensaje`. */
  class AddProductForm {
    var form: FormData
    var notice: Notice

    /** The chosen sizes are size numerals without duplicates, kept in
        ascending order. */
    ghost predicate Valid()
      reads this
    {
      AllNumerals(form.tallas) && NoDuplicates(form.tallas) && SortedBySize(form.tallas)
    }

    constructor()
      ensures form == EMPTY_FORM && notice == NoNotice
      ensures Valid()
    {
      form := EMPTY_FORM;
      notice := NoNotice;
    }

    method SetName(nombre: string)
      modifies this
      ensures form == old(form).(nombre := nombre) && notice == old(notice)
    {
      form := form.(nombre := nombre);
    }

    method SetSubcategory(subcategoria: string)
      modifies this
      ensures form == old(form).(subcategoria := subcategoria) && notice == old(notice)
    {
      form := form.(subcategoria := subcategoria);
    }

    method SetBrand(marca: string)
      modifies this
      ensures form == old(form).(marca := marca) && notice == old(notice)
    {
      form := form.(marca := marca);
    }

    /** `handleImagenChange`: an empty file choice keeps the previous image. */
    method SelectImage(file: Option<ImageFile>)
      modifies this
      ensures file.Some? ==> form == old(form).(imagen := file)
      ensures file.None? ==> form == old(form)
      ensures notice == old(notice)
    {
      if file.Some? {
        form := form.(imagen := file);
      }
    }

    /** `handleTallasChange`: a size button was pressed. */
    method ToggleSize(talla: string)
      requires Valid() && IsNumeral(talla)
      modifies this
      ensures form == old(form).(tallas := ToggledSizes(old(form.tallas), talla))
      ensures notice == old(notice)
      ensures talla in form.tallas <==> talla !in old(form.tallas)
      ensures Valid()
    {
      ToggleMembership(form.tallas, talla);
      ToggleKeepsNumerals(form.tallas, talla);
      form := form.(tallas := ToggledSizes(form.tallas, talla));
    }

    /** The category select: brand, sub-category and sizes start over. */
    method ChangeCategory(categoria: string)
      modifies this
      ensures form == FormData(old(form).nombre, categoria, "", "", [], old(form).imagen)
      ensures notice == old(notice)
      ensures Valid()
    {
      form := form.(categoria := categoria, marca := "", subcategoria := "", tallas := []);
    }

    /** `handleSubmit`. The storage and database calls are replaced by their
        outcomes: `uploadError` for the upload, `publicUrl` for the public URL
        of the uploaded object and `insertError` for the insert. Returns the
        path the image was uploaded under and the record sent, when each
        happened. */
    method Submit(randomName: string, uploadError: Option<string>, publicUrl: string,
                  insertError: Option<string>)
      returns (uploadedAs: Option<string>, sent: Option<NewProduct>)
      modifies this
      ensures uploadedAs.Some? <==> old(form).imagen.Some?
      ensures uploadedAs.Some? ==> uploadedAs.value == UploadPath(randomName, old(form).imagen.value)
      ensures sent.Some? <==> old(form).imagen.None? || uploadError.None?
      ensures sent.Some? ==>
        sent.value == NewProductRecord(old(form), if old(form).imagen.Some? then Some(publicUrl) else None)
      ensures sent.Some? && insertError.None? ==> form == EMPTY_FORM && notice == Saved
      ensures sent.None? ==> form == old(form) && notice == Failed(uploadError.value)
      ensures sent.Some? && insertError.Some? ==> form == old(form) && notice == Failed(insertError.value)
      ensures old(Valid()) ==> Valid()
    {
      notice := NoNotice;
      uploadedAs := None;
      sent := None;
      var imagenUrl: Option<string> := None;
      if form.imagen.Some? {
        var path := UploadPath(randomName, form.imagen.value);
        uploadedAs := Some(path);
        if uploadError.Some? {
          notice := Failed(uploadError.value);
          return;
        }
        imagenUrl := Some(publicUrl);
      }
      var record := NewProductRecord(form, imagenUrl);
      sent := Some(record);
      if insertError.Some? {
        notice := Failed(insertError.value);
        return;
      }
      notice := Saved;
      form := EMPTY_FORM;
    }
  }
}

=== FILE: common.dfy ===
/** Values that may be missing (JavaScript `null`) and results of operations
    that may be rejected with a message. */
module Common {

  datatype Option<+T> = None | Some(value: T) {
    function GetOr(default: T): T {
      match this
      case Some(v) => v
      case None => default
    }
  }

  datatype Result<+R> = Success(value: R) | Failure(error: string)
}

=== FILE: productlist.dfy ===
/** The back-office product list: its search box and category filter, the
    edit form with its offer-price check, the comma-separated size field, and
    the storage keys removed when a product is deleted. */
module ProductList {
  import opened Common
  import opened Text
  import opened Seqs
  import opened Products
  import AddProduct

  // ---------------------------------------------------------------------------
  // Search and category filter
  // ---------------------------------------------------------------------------

  /** The search rule: the lower-cased name contains the lower-cased text, and
      the category matches unless no category is chosen. */
  predicate ListedBy(busqueda: string, categoriaFiltro: string, p: Product) {
    Contains(Lower(p.nombre), Lower(busqueda))
    && (categoriaFiltro == "" || p.categoria == categoriaFiltro)
  }

  /** The admin search ignores case, in the search text and in the names. */
  lemma ListedByIgnoresCase(busqueda: string, otra: string, categoriaFiltro: string, p: Product)
    requires |busqueda| == |otra|
    requires forall i :: 0 <= i < |busqueda| ==> SameUpToCase(busqueda[i], otra[i])
    ensures ListedBy(busqueda, categoriaFiltro, p) <==> ListedBy(otra, categoriaFiltro, p)
  {
    LowerIgnoresCase(busqueda, otra);
  }

  /** `productosFiltrados` of the admin list. */
  function AdminFilter(ps: seq<Product>, busqueda: string, categoriaFiltro: string): (r: seq<Product>)
    ensures IsSubsequence(r, ps)
    ensures forall p :: p in r <==> p in ps && ListedBy(busqueda, categoriaFiltro, p)
  {
    FilterIsSubsequence(ps, p => ListedBy(busqueda, categoriaFiltro, p));
    Filter(ps, p => ListedBy(busqueda, categoriaFiltro, p))
  }

  /** With no search text and no category the whole list is shown. */
  lemma AdminFilterNoCriteria(ps: seq<Product>)
    ensures AdminFilter(ps, "", "") == ps
  {
    assert forall p | p in ps :: ListedBy("", "", p);
    FilterAll(ps, p => ListedBy("", "", p));
  }

  // ---------------------------------------------------------------------------
  // The edit form
  // ---------------------------------------------------------------------------

  /** The value of a price field of `productoEditando`, by JavaScript
      truthiness: `Blank` is a falsy value (the empty text, `null`, or a
      stored 0) and `Entered(c)` a truthy one that `Number` reads as `c`
      cents (a stored non-zero price, or typed text such as "0"). */
  datatype PriceInput = Blank | Entered(cents: Cents)

  /** A stored price as the edit form first holds it. */
  function InputOf(price: Option<Cents>): (r: PriceInput)
    ensures r.Blank? <==> !Truthy(price)
    ensures r.Entered? ==> r.cents == price.value
  {
    if Truthy(price) then Entered(price.value) else Blank
  }

  /** `Number(field)`: a falsy field reads as 0. */
  function NumberOf(input: PriceInput): Cents {
    match input
    case Blank => 0
    case Entered(c) => c
  }

  /** `productoEditando`: the fields the edit form can change, plus the id of
      the row. */
  datatype EditForm = EditForm(
    id: int,
    nombre: string,
    marca: Option<string>,
    tallas: Option<seq<string>>,
    precio: PriceInput,
    precioOferta: PriceInput)

  /** The "edit" button: the form starts from the stored row. */
  function StartEditing(p: Product): (r: EditForm)
    ensures r.id == p.id && r.nombre == p.nombre && r.marca == p.marca && r.tallas == p.tallas
    ensures NumberOf(r.precio) == AsNumber(p.precio)
    ensures r.precioOferta.Blank? <==> !Truthy(p.precioOferta)
    ensures r.precioOferta.Entered? ==> r.precioOferta.cents == p.precioOferta.value
  {
    EditForm(p.id, p.nombre, p.marca, p.tallas, InputOf(p.precio), InputOf(p.precioOferta))
  }

  /** `updateData`: the only columns `actualizarProducto` sends. */
  datatype UpdateFields = UpdateFields(
    nombre: string,
    marca: Option<string>,
    tallas: Option<seq<string>>,
    precio: Cents,
    precioOferta: Option<Cents>)

  const OFFER_NOT_BELOW_PRICE: string := "El precio de oferta debe ser menor al precio normal"

  /** `actualizarProducto` up to the update call: build `updateData` and
      reject an offer that is not below the price. */
  function BuildUpdate(e: EditForm): (r: Result<UpdateFields>)
    ensures r.Failure? <==>
      e.precioOferta.Entered? && e.precioOferta.cents != 0
      && e.precioOferta.cents >= NumberOf(e.precio)
    ensures r.Failure? ==> r.error == OFFER_NOT_BELOW_PRICE
    ensures r.Success? ==>
      r.value.nombre == e.nombre && r.value.marca == e.marca && r.value.tallas == e.tallas
      && r.value.precio == NumberOf(e.precio)
      && (r.value.precioOferta.None? <==> e.precioOferta.Blank?)
      && (r.value.precioOferta.Some? ==> r.value.precioOferta.value == e.precioOferta.cents)
  {
    var precioOferta := if e.precioOferta.Entered? then Some(e.precioOferta.cents) else None;
    var u := UpdateFields(e.nombre, e.marca, e.tallas, NumberOf(e.precio), precioOferta);
    if Truthy(u.precioOferta) && u.precioOferta.value >= u.precio then
      Failure(OFFER_NOT_BELOW_PRICE)
    else
      Success(u)
  }

  /** The row after the update: the five sent columns change, nothing else. */
  function ApplyUpdate(p: Product, u: UpdateFields): (r: Product)
    ensures r.id == p.id && r.categoria == p.categoria && r.subcategoria == p.subcategoria
    ensures r.imagenes == p.imagenes && r.imagenUrl == p.imagenUrl
    ensures r.nombre == u.nombre && r.marca == u.marca && r.tallas == u.tallas
    ensures r.precio == Some(u.precio) && r.precioOferta == u.precioOferta
  {
    p.(nombre := u.nombre, marca := u.marca, tallas := u.tallas,
       precio := Some(u.precio), precioOferta := u.precioOferta)
  }

  /** `producto.imagenes?.[0] || producto.imagen_url` is truthy: the card has
      a picture block, and the badges are drawn inside it. */
  predicate HasCardImage(p: Product) {
    (p.imagenes.Some? && p.imagenes.value != [] && p.imagenes.value[0] != "")
    || (p.imagenUrl.Some? && p.imagenUrl.value != "")
  }

  /** The "OFERTA" badge of an admin card: the offer test, inside the picture
      block. */
  predicate ShowsOfferBadge(p: Product) {
    HasCardImage(p) && HasOffer(p)
  }

  /** After an accepted update the offer test holds exactly when a non-zero
      offer was saved, so the "OFERTA" badge shows exactly then on a card with
      a picture and never on one without; the amount asked for at payment is
      the price shown in the product modal. */
  lemma AcceptedUpdateKeepsPricesConsistent(p: Product, e: EditForm)
    requires BuildUpdate(e).Success?
    ensures var q := ApplyUpdate(p, BuildUpdate(e).value);
      (HasOffer(q) <==> e.precioOferta.Entered? && e.precioOferta.cents != 0)
      && (ShowsOfferBadge(q) <==> HasCardImage(p) && e.precioOferta.Entered? && e.precioOferta.cents != 0)
      && (Truthy(q.precio) ==> AmountToPay(q) == DisplayedPrice(q))
  {
    var q := ApplyUpdate(p, BuildUpdate(e).value);
    if Truthy(q.precio) {
      AmountMatchesDisplayIff(q);
    }
  }

  /** Saving the form without touching it succeeds exactly when the stored
      offer is falsy or below the price, and then leaves the badge as it was. */
  lemma SaveUnchanged(p: Product)
    ensures BuildUpdate(StartEditing(p)).Success? <==>
      !(Truthy(p.precioOferta) && p.precioOferta.value >= AsNumber(p.precio))
    ensures BuildUpdate(StartEditing(p)).Success? ==>
      (HasOffer(ApplyUpdate(p, BuildUpdate(StartEditing(p)).value)) <==> HasOffer(p))
    ensures BuildUpdate(StartEditing(p)).Success? ==>
      (ShowsOfferBadge(ApplyUpdate(p, BuildUpdate(StartEditing(p)).value)) <==> ShowsOfferBadge(p))
  {
  }

  // ---------------------------------------------------------------------------
  // The size field
  // ---------------------------------------------------------------------------

  /** `tallas.join(', ')`: the text the size field shows. It starts with the
      first size, ends with the last, and cuts back at ',' into one piece per
      size when no size holds a comma. */
  function SizesText(tallas: seq<string>): (r: string)
    ensures tallas != [] ==> IsPrefix(tallas[0], r) && IsSuffix(tallas[|tallas| - 1], r)
    ensures |tallas| >= 1 && (forall i :: 0 <= i < |tallas| ==> ',' !in tallas[i])
            ==> |Split(r, ',')| == |tallas|
  {
    var r := Join(tallas, ", ");
    assert |tallas| >= 1 && (forall i :: 0 <= i < |tallas| ==> ',' !in tallas[i])
           ==> |Split(r, ',')| == |tallas| by {
      if |tallas| >= 1 && (forall i :: 0 <= i < |tallas| ==> ',' !in tallas[i]) {
        SplitJoined(tallas);
      }
    }
    r
  }

  /** `text.split(',').map(t => t.trim())`: the list the size field stores. */
  function ParseSizes(text: string): (r: seq<string>)
    ensures |r| >= 1
    ensures forall i :: 0 <= i < |r| ==> IsTrimmed(r[i]) && ',' !in r[i]
  {
    var pieces := Split(text, ',');
    seq(|pieces|, i requires 0 <= i < |pieces| => Trim(pieces[i]))
  }

  /** Clearing the size field stores one empty size, not an empty list. */
  lemma ParseClearedField()
    ensures ParseSizes("") == [""]
  {
  }

  /** The pieces of `join(', ')` split at ',': the first entry, then every
      further entry behind one blank. */
  lemma {:induction false} SplitJoined(xs: seq<string>)
    requires |xs| >= 1
    requires forall i :: 0 <= i < |xs| ==> ',' !in xs[i]
    ensures var ps := Split(Join(xs, ", "), ',');
      |ps| == |xs| && ps[0] == xs[0] && forall i :: 1 <= i < |xs| ==> ps[i] == " " + xs[i]
    decreases |xs|
  {
    if |xs| == 1 {
      SplitWithoutSeparator(xs[0], ',');
    } else {
      var tail := Join(xs[1..], ", ");
      SplitJoined(xs[1..]);
      var qs := Split(tail, ',');
      assert Join(xs, ", ") == xs[0] + [','] + ([' '] + tail);
      SplitAtFirstSeparator(xs[0], ',', [' '] + tail);
      assert ([' '] + tail)[1..] == tail;
      assert Split([' '] + tail, ',') == [[' '] + qs[0]] + qs[1..];
      var ps := Split(Join(xs, ", "), ',');
      assert ps == [xs[0]] + ([[' '] + qs[0]] + qs[1..]);
      forall i | 1 <= i < |xs|
        ensures ps[i] == " " + xs[i]
      {
        if i > 1 {
          assert ps[i] == qs[i - 1] == " " + xs[1..][i - 1];
        }
      }
    }
  }

  /** The size field gives back the list it shows, as long as the list is
      non-empty and its entries have no comma and no surrounding whitespace. */
  lemma ParseSizesText(xs: seq<string>)
    requires |xs| >= 1
    requires forall i :: 0 <= i < |xs| ==> ',' !in xs[i] && IsTrimmed(xs[i])
    ensures ParseSizes(SizesText(xs)) == xs
  {
    SplitJoined(xs);
    var ps := Split(SizesText(xs), ',');
    var r := ParseSizes(SizesText(xs));
    assert |r| == |ps| == |xs|;
    forall i | 0 <= i < |xs|
      ensures r[i] == xs[i]
    {
      assert r[i] == Trim(ps[i]);
      if i > 0 {
        assert ps[i] == [' '] + xs[i];
        TrimLeadingBlank(xs[i]);
      }
    }
  }

  /** The sizes chosen in the add form always survive a round trip through
      the size field. */
  lemma ChosenSizesSurviveEditing(tallas: seq<string>)
    requires |tallas| >= 1 && AddProduct.AllNumerals(tallas)
    ensures ParseSizes(SizesText(tallas)) == tallas
  {
    forall i | 0 <= i < |tallas|
      ensures ',' !in tallas[i] && IsTrimmed(tallas[i])
    {
      assert tallas[i] in tallas;
      assert NatToString(DecimalValue(tallas[i])) == tallas[i];
    }
    ParseSizesText(tallas);
  }

  // ---------------------------------------------------------------------------
  // Deleting a product
  // ---------------------------------------------------------------------------

  /** The storage keys `eliminarProducto` removes: the last '/'-separated
      segment of each image URL, in order, and nothing when the product has
      no image list or an empty one. */
  function StorageKeys(imagenes: Option<seq<string>>): (r: Option<seq<string>>)
    ensures r.None? <==> imagenes.None? || imagenes.value == []
    ensures r.Some? ==> |r.value| == |imagenes.value|
    ensures r.Some? ==> forall i :: 0 <= i < |r.value| ==>
      var url := imagenes.value[i]; var key := r.value[i];
      '/' !in key && |key| <= |url| && url[|url| - |key|..] == key
      && (|key| == |url| || url[|url| - |key| - 1] == '/')
  {
    match imagenes
    case None => None
    case Some(urls) =>
      if urls == [] then None
      else Some(seq(|urls|, i requires 0 <= i < |urls| => LastSegment(urls[i], '/')))
  }

  /** An image URL listed in `imagenes` whose object sits at `base/name`,
      `name` without '/', is removed under the key `name`. */
  lemma StorageKeyOfObjectUrl(base: string, name: string)
    requires '/' !in name
    ensures StorageKeys(Some([base + "/" + name])) == Some([name])
  {
    var url := base + "/" + name;
    assert url == base + ['/'] + name;
    LastSegmentAfter(base, '/', name);
    var keys := StorageKeys(Some([url]));
    assert keys.value[0] == LastSegment(url, '/') == name;
    assert keys.value == [name];
  }

  /** The row the add form inserts, as the list reads it back: the columns
      the insert names, and null in every column it leaves out, among them
      the image list `imagenes` and both prices. */
  function InsertedRow(id: int, rec: AddProduct.NewProduct): (r: Product)
    ensures r.id == id && r.nombre == rec.nombre && r.categoria == rec.categoria
    ensures r.subcategoria == rec.subcategoria && r.marca == rec.marca && r.tallas == rec.tallas
    ensures r.imagenUrl == rec.imagenUrl
    ensures r.imagenes.None? && r.precio.None? && r.precioOferta.None?
  {
    Product(id, rec.nombre, rec.categoria, rec.subcategoria, rec.marca, rec.tallas,
            None, None, None, rec.imagenUrl)
  }

  /** The keys the delete button removes from storage, as written: only the
      URLs of the image list `imagenes` are looked at. */
  function DeletedKeys(p: Product): (r: Option<seq<string>>)
    ensures r.None? <==> p.imagenes.None? || p.imagenes.value == []
    ensures r.Some? ==> |r.value| == |p.imagenes.value|
    ensures r.Some? ==> forall k :: 0 <= k < |r.value| ==> r.value[k] == LastSegment(p.imagenes.value[k], '/')
  {
    StorageKeys(p.imagenes)
  }

  /** As written, deleting a product created by the add form removes no image
      from storage, even when the form uploaded one. */
  lemma DeleteLeavesUploadedImage(id: int, rec: AddProduct.NewProduct)
    requires rec.imagenUrl.Some?
    ensures InsertedRow(id, rec).imagenUrl.Some?
    ensures DeletedKeys(InsertedRow(id, rec)) == None
  {
  }

  /** The keys deletion should remove: those of the image list when it is
      non-empty, and otherwise the key of `imagen_url`, the same image the
      card falls back to. */
  function DeletedKeysIntended(p: Product): (r: Option<seq<string>>)
    ensures p.imagenes.Some? && p.imagenes.value != [] ==> r == DeletedKeys(p)
    ensures r.None? <==> (p.imagenes.None? || p.imagenes.value == []) && p.imagenUrl.None?
    ensures !(p.imagenes.Some? && p.imagenes.value != []) && p.imagenUrl.Some?
            ==> r == Some([LastSegment(p.imagenUrl.value, '/')])
    ensures r.Some? ==> forall k :: k in r.value ==> '/' !in k
  {
    if p.imagenes.Some? && p.imagenes.value != [] then
      var r := StorageKeys(p.imagenes);
      assert forall k :: k in r.value ==> exists i :: 0 <= i < |r.value| && r.value[i] == k;
      r
    else if p.imagenUrl.Some? then
      var keys := StorageKeys(Some([p.imagenUrl.value]));
      assert keys.value == [LastSegment(p.imagenUrl.value, '/')];
      keys
    else None
  }

  /** With the corrected rule, the image uploaded by the add form is removed
      under the very path it was uploaded to. */
  lemma {:induction false} IntendedDeleteRemovesUploadedImage(
    id: int, base: string, randomName: string, file: AddProduct.ImageFile, rec: AddProduct.NewProduct)
    requires '/' !in randomName && '/' !in file.name
    requires rec.imagenUrl == Some(base + "/" + AddProduct.UploadPath(randomName, file))
    ensures DeletedKeysIntended(InsertedRow(id, rec)) == Some([AddProduct.UploadPath(randomName, file)])
  {
    var path := AddProduct.UploadPath(randomName, file);
    var ext := AddProduct.Extension(file.name);
    assert path == randomName + "." + ext;
    assert forall c :: c in ext ==> c in file.name;
    StorageKeyOfObjectUrl(base, path);
  }
}

=== FILE: products.dfy ===
/** A row of the `productos` table as the storefront and the back office read
    it, the category names both use, and the price rules shared by the
    catalogue cards, the product modal and the admin list. */
module Products {
  import opened Common

  /** Prices are whole cents (the edit form steps by 0.01). */
  type Cents = int

  datatype Product = Product(
    id: int,
    nombre: string,
    categoria: string,
    subcategoria: Option<string>,
    marca: Option<string>,
    tallas: Option<seq<string>>,
    precio: Option<Cents>,
    precioOferta: Option<Cents>,
    imagenes: Option<seq<string>>,
    imagenUrl: Option<string>)

  const DOS_POR_95: string := "2x95"
  const DEPORTIVOS: string := "Artículos Deportivos"
  const OFERTAS: string := "Ofertas"

  /** The fixed price of a 2x95 pair: S/ 95.00. */
  const PRECIO_2X95: Cents := 9500

  /** JavaScript truthiness of a price: `null` and `0` are falsy. */
  predicate Truthy(price: Option<Cents>) {
    price.Some? && price.value != 0
  }

  /** The number a price stands for in an arithmetic comparison or in
      `price || 0`: `null` counts as 0. */
  function AsNumber(price: Option<Cents>): Cents {
    price.GetOr(0)
  }

  /** `precio_oferta && precio_oferta < precio`: the product is on offer.
      The same test decides the offer styling of the catalogue cards, the
      "OFERTA ESPECIAL" tag of the product modal and the "OFERTA" badge of the
      admin list. */
  predicate HasOffer(p: Product) {
    Truthy(p.precioOferta) && p.precioOferta.value < AsNumber(p.precio)
  }

  /** `precio_oferta || precio`: the amount the Yape payment modal asks for. */
  function AmountToPay(p: Product): (r: Option<Cents>)
    ensures Truthy(p.precioOferta) ==> r == p.precioOferta
    ensures !Truthy(p.precioOferta) ==> r == p.precio
    ensures HasOffer(p) ==> r.Some? && r.value < AsNumber(p.precio)
  {
    if Truthy(p.precioOferta) then p.precioOferta else p.precio
  }

  /** The price the product modal prints in large type: nothing when the
      price is falsy, the offer when there is one, the normal price otherwise. */
  function DisplayedPrice(p: Product): (r: Option<Cents>)
    ensures r.Some? <==> Truthy(p.precio)
    ensures r.Some? ==> r.value <= p.precio.value
    ensures r.Some? && r.value < p.precio.value <==> Truthy(p.precio) && HasOffer(p)
  {
    if !Truthy(p.precio) then None
    else if HasOffer(p) then p.precioOferta
    else p.precio
  }

  /** The amount the Yape modal asks for differs from the price the product
      modal shows exactly when a (truthy) stored offer is above the normal
      price. */
  lemma AmountMatchesDisplayIff(p: Product)
    requires Truthy(p.precio)
    ensures AmountToPay(p) == DisplayedPrice(p)
      <==> !(Truthy(p.precioOferta) && p.precioOferta.value > p.precio.value)
  {
  }
}

=== FILE: seqs.dfy ===
/** `Array.prototype.filter` and `Array.prototype.find`, and what it means for
    one list to be an order-preserving selection from another. */
module Seqs {
  import opened Common

  /** `r` is obtained from `s` by deleting elements, keeping the order of the
      rest. */
  predicate IsSubsequence<T(==)>(r: seq<T>, s: seq<T>)
    decreases |s|
  {
    if r == [] then true
    else if s == [] then false
    else (r[0] == s[0] && IsSubsequence(r[1..], s[1..])) || IsSubsequence(r, s[1..])
  }

  /** No element occurs twice. */
  predicate NoDuplicates<T(==)>(s: seq<T>) {
    forall i, j :: 0 <= i < j < |s| ==> s[i] != s[j]
  }

  /** An element met at two positions is counted at least twice. */
  lemma RepeatCountsTwice<T>(s: seq<T>, i: nat, j: nat)
    requires i < j < |s| && s[i] == s[j]
    ensures multiset(s)[s[i]] >= 2
  {
    assert s == s[..j] + s[j..];
    assert s[i] in s[..j];
    assert s[j..][0] == s[j];
    assert multiset(s) == multiset(s[..j]) + multiset(s[j..]);
  }

  /** A list has no duplicates exactly when it counts every value at most
      once. */
  lemma {:induction false} NoDuplicatesIffSingleCounts<T>(s: seq<T>)
    ensures NoDuplicates(s) <==> forall x :: multiset(s)[x] <= 1
    decreases |s|
  {
    if !NoDuplicates(s) {
      var i, j :| 0 <= i < j < |s| && s[i] == s[j];
      RepeatCountsTwice(s, i, j);
    } else if s != [] {
      NoDuplicatesIffSingleCounts(s[1..]);
      assert s == [s[0]] + s[1..];
      assert s[0] !in s[1..];
      assert NoDuplicates(s[1..]);
    }
  }

  /** `s.filter(keep)`: the elements of `s` that `keep` accepts. */
  function Filter<T(!new)>(s: seq<T>, keep: T -> bool): (r: seq<T>)
    ensures |r| <= |s|
    ensures forall x :: x in r <==> x in s && keep(x)
    ensures forall x :: multiset(r)[x] == if keep(x) then multiset(s)[x] else 0
    decreases |s|
  {
    if s == [] then []
    else
      var rest := Filter(s[1..], keep);
      assert s == [s[0]] + s[1..];
      assert multiset(s) == multiset{s[0]} + multiset(s[1..]);
      (if keep(s[0]) then [s[0]] else []) + rest
  }

  /** Filtering keeps the order of what it keeps. */
  lemma {:induction false} FilterIsSubsequence<T(!new)>(s: seq<T>, keep: T -> bool)
    ensures IsSubsequence(Filter(s, keep), s)
    decreases |s|
  {
    if s != [] {
      FilterIsSubsequence(s[1..], keep);
      var r := Filter(s, keep);
      if keep(s[0]) {
        assert r[0] == s[0] && r[1..] == Filter(s[1..], keep);
      } else {
        assert r == Filter(s[1..], keep);
      }
    }
  }

  /** A filter that accepts every element returns the list unchanged. */
  lemma {:induction false} FilterAll<T(!new)>(s: seq<T>, keep: T -> bool)
    requires forall x :: x in s ==> keep(x)
    ensures Filter(s, keep) == s
    decreases |s|
  {
    if s != [] {
      FilterAll(s[1..], keep);
      assert [s[0]] + s[1..] == s;
    }
  }

  /** Unfolding a filter one element at a time. */
  lemma FilterCons<T(!new)>(x: T, s: seq<T>, keep: T -> bool)
    ensures Filter([x] + s, keep) == (if keep(x) then [x] else []) + Filter(s, keep)
  {
    assert ([x] + s)[1..] == s;
  }

  /** `if (cond) { s = s.filter(keep) }`: a filter applied only when its
      control is set. */
  function FilterWhen<T(!new)>(s: seq<T>, cond: bool, keep: T -> bool): (r: seq<T>)
    ensures !cond ==> r == s
    ensures forall x :: x in r <==> x in s && (!cond || keep(x))
    ensures |r| <= |s|
  {
    if cond then Filter(s, keep) else s
  }

  /** Unfolding a conditional filter one (possibly already dropped) element at
      a time. */
  lemma FilterWhenCons<T(!new)>(kept: bool, x: T, s: seq<T>, cond: bool, keep: T -> bool)
    ensures FilterWhen((if kept then [x] else []) + s, cond, keep)
         == (if kept && (!cond || keep(x)) then [x] else []) + FilterWhen(s, cond, keep)
  {
    assert [] + s == s;
    if cond && kept {
      FilterCons(x, s, keep);
    }
  }

  /** The position of the first element that `found` accepts. */
  function FirstIndex<T>(s: seq<T>, found: T -> bool): (r: Option<nat>)
    ensures r.Some? ==> r.value < |s| && found(s[r.value])
    ensures r.Some? ==> forall j :: 0 <= j < r.value ==> !found(s[j])
    ensures r.None? ==> forall j :: 0 <= j < |s| ==> !found(s[j])
    decreases |s|
  {
    if s == [] then None
    else if found(s[0]) then Some(0)
    else
      match FirstIndex(s[1..], found)
      case None => None
      case Some(k) => Some(k + 1)
  }

  /** `s.find(found)`: the first element `found` accepts, if any. */
  function Find<T(!new)>(s: seq<T>, found: T -> bool): (r: Option<T>)
    ensures r.Some? ==> r.value in s && found(r.value)
    ensures r.Some? ==> exists k :: 0 <= k < |s| && s[k] == r.value
                                    && forall j :: 0 <= j < k ==> !found(s[j])
    ensures r.None? ==> forall x :: x in s ==> !found(x)
  {
    match FirstIndex(s, found)
    case None => None
    case Some(k) => Some(s[k])
  }
}

=== FILE: storefront.dfy ===
/** The public shop page: the catalogue filters, the "2x95" pick-two offer and
    the product modal with its image carousel and click-to-zoom. */
module Storefront {
  import opened Common
  import opened Text
  import opened Seqs
  import opened Products

  // ===========================================================================
  // Catalogue filtering
  // ===========================================================================

  /** The filter controls of the shop page. `subcategoria` is `null` until a
      sports sub-category is chosen. */
  datatype CatalogView = CatalogView(
    categoria: string,
    subcategoria: Option<string>,
    busqueda: string,
    talla: string,
    marca: string)

  /** Truthiness of the chosen sub-category. */
  predicate SubcategoryChosen(sub: Option<string>) {
    sub.Some? && sub.value != ""
  }

  predicate NameMatches(p: Product, busqueda: string) {
    Contains(Lower(p.nombre), Lower(busqueda))
  }

  /** The name search ignores case, in the search text and in the names. */
  lemma NameMatchIgnoresCase(p: Product, q: Product, busqueda: string, otra: string)
    requires |p.nombre| == |q.nombre|
    requires forall i :: 0 <= i < |p.nombre| ==> SameUpToCase(p.nombre[i], q.nombre[i])
    requires |busqueda| == |otra|
    requires forall i :: 0 <= i < |busqueda| ==> SameUpToCase(busqueda[i], otra[i])
    ensures NameMatches(p, busqueda) <==> NameMatches(q, otra)
  {
    LowerIgnoresCase(p.nombre, q.nombre);
    LowerIgnoresCase(busqueda, otra);
  }

  predicate HasSize(p: Product, talla: string) {
    p.tallas.Some? && talla in p.tallas.value
  }

  /** The first filter of the chain: one branch per kind of category. It keeps
      exactly the products of the chosen category (and of the chosen sports
      sub-category, once one is chosen). */
  function ByCategory(ps: seq<Product>, v: CatalogView): (r: seq<Product>)
    ensures |r| <= |ps|
    ensures forall p :: p in r <==> p in ps && InCategory(v, p)
  {
    if v.categoria == DOS_POR_95 then
      Filter(ps, (p: Product) => p.categoria == DOS_POR_95)
    else if v.categoria == DEPORTIVOS then
      Filter(ps, (p: Product) => p.categoria == DEPORTIVOS
                                 && (!SubcategoryChosen(v.subcategoria) || p.subcategoria == v.subcategoria))
    else if v.categoria == OFERTAS then
      Filter(ps, (p: Product) => p.categoria == OFERTAS)
    else
      Filter(ps, (p: Product) => p.categoria == v.categoria)
  }

  /** `productosFiltrados()`: the category filter, then the name search
      (not for sports articles), then the size and the brand filters (not for
      "Ofertas" nor "2x95"), each applied only when its control is non-empty. What is left are the
      loaded products the rules of `InView` admit. */
  function CatalogFilter(ps: seq<Product>, v: CatalogView): (r: seq<Product>)
    ensures |r| <= |ps|
    ensures forall p :: p in r <==> p in ps && InView(v, p)
  {
    var byCategory := ByCategory(ps, v);
    var bySearch := FilterWhen(byCategory, v.busqueda != "" && v.categoria != DEPORTIVOS,
                               (p: Product) => NameMatches(p, v.busqueda));
    var bySize := FilterWhen(bySearch, v.talla != "" && v.categoria != OFERTAS && v.categoria != DOS_POR_95,
                             (p: Product) => HasSize(p, v.talla));
    FilterWhen(bySize, v.marca != "" && v.categoria != OFERTAS && v.categoria != DOS_POR_95,
               (p: Product) => p.marca == Some(v.marca))
  }

  predicate SearchApplies(v: CatalogView) {
    v.busqueda != "" && v.categoria != DEPORTIVOS
  }

  predicate SizeAndBrandApply(v: CatalogView) {
    v.categoria != OFERTAS && v.categoria != DOS_POR_95
  }

  predicate InCategory(v: CatalogView, p: Product) {
    && p.categoria == v.categoria
    && (v.categoria == DEPORTIVOS && SubcategoryChosen(v.subcategoria) ==> p.subcategoria == v.subcategoria)
  }

  /** The rules of the catalogue view, one conjunct per rule. */
  predicate InView(v: CatalogView, p: Product) {
    && InCategory(v, p)
    && (SearchApplies(v) ==> NameMatches(p, v.busqueda))
    && (SizeAndBrandApply(v) && v.talla != "" ==> HasSize(p, v.talla))
    && (SizeAndBrandApply(v) && v.marca != "" ==> p.marca == Some(v.marca))
  }

  lemma ByCategoryCons(p: Product, rest: seq<Product>, v: CatalogView)
    ensures ByCategory([p] + rest, v) == (if InCategory(v, p) then [p] else []) + ByCategory(rest, v)
  {
    if v.categoria == DOS_POR_95 {
      FilterCons(p, rest, (p: Product) => p.categoria == DOS_POR_95);
    } else if v.categoria == DEPORTIVOS {
      FilterCons(p, rest, (p: Product) => p.categoria == DEPORTIVOS
                                 && (!SubcategoryChosen(v.subcategoria) || p.subcategoria == v.subcategoria));
    } else if v.categoria == OFERTAS {
      FilterCons(p, rest, (p: Product) => p.categoria == OFERTAS);
    } else {
      FilterCons(p, rest, (p: Product) => p.categoria == v.categoria);
    }
  }

  lemma CatalogFilterCons(p: Product, rest: seq<Product>, v: CatalogView)
    ensures CatalogFilter([p] + rest, v) == (if InView(v, p) then [p] else []) + CatalogFilter(rest, v)
  {
    ByCategoryCons(p, rest, v);
    var k1 := InCategory(v, p);
    var c := ByCategory(rest, v);
    var name := (p: Product) => NameMatches(p, v.busqueda);
    FilterWhenCons(k1, p, c, SearchApplies(v), name);
    var k2 := k1 && (!SearchApplies(v) || name(p));
    var s := FilterWhen(c, SearchApplies(v), name);
    var size := (p: Product) => HasSize(p, v.talla);
    FilterWhenCons(k2, p, s, SizeAndBrandApply(v) && v.talla != "", size);
    var k3 := k2 && (!(SizeAndBrandApply(v) && v.talla != "") || size(p));
    var z := FilterWhen(s, SizeAndBrandApply(v) && v.talla != "", size);
    FilterWhenCons(k3, p, z, SizeAndBrandApply(v) && v.marca != "", (p: Product) => p.marca == Some(v.marca));
  }

  /** The filter chain keeps exactly the products the rules admit, in their
      original order. */
  lemma {:induction false} CatalogFilterIsFilter(ps: seq<Product>, v: CatalogView)
    ensures CatalogFilter(ps, v) == Filter(ps, (p: Product) => InView(v, p))
    decreases |ps|
  {
    if ps != [] {
      assert ps == [ps[0]] + ps[1..];
      CatalogFilterIsFilter(ps[1..], v);
      CatalogFilterCons(ps[0], ps[1..], v);
      FilterCons(ps[0], ps[1..], (p: Product) => InView(v, p));
    }
  }

  /** What the shop lists: an order-preserving selection of the loaded
      products, holding exactly those of the current category that pass every
      filter that applies to it. */
  lemma CatalogFilterSpec(ps: seq<Product>, v: CatalogView)
    ensures IsSubsequence(CatalogFilter(ps, v), ps)
    ensures forall p :: p in CatalogFilter(ps, v) <==> p in ps && InView(v, p)
    ensures forall p :: p in CatalogFilter(ps, v) ==> p.categoria == v.categoria
  {
    CatalogFilterIsFilter(ps, v);
    FilterIsSubsequence(ps, (p: Product) => InView(v, p));
  }

  /** The name search has no effect on sports articles. */
  lemma SearchIgnoredForSports(ps: seq<Product>, v: CatalogView, busqueda: string)
    requires v.categoria == DEPORTIVOS
    ensures CatalogFilter(ps, v.(busqueda := busqueda)) == CatalogFilter(ps, v)
  {
  }

  /** The size and brand filters have no effect under "Ofertas" and "2x95". */
  lemma SizeAndBrandIgnoredForOffers(ps: seq<Product>, v: CatalogView, talla: string, marca: string)
    requires v.categoria == OFERTAS || v.categoria == DOS_POR_95
    ensures CatalogFilter(ps, v.(talla := talla, marca := marca)) == CatalogFilter(ps, v)
  {
  }

  // ===========================================================================
  // The 2x95 offer: pick two products
  // ===========================================================================

  lemma {:induction false} FilterKeepsNoDuplicates(s: seq<int>, keep: int -> bool)
    requires NoDuplicates(s)
    ensures NoDuplicates(Filter(s, keep))
    decreases |s|
  {
    if s != [] {
      FilterKeepsNoDuplicates(s[1..], keep);
      assert s[0] !in s[1..];
    }
  }

  /** Removing one element of a list without duplicates shortens it by one. */
  lemma {:induction false} FilterOutOne(s: seq<int>, x: int)
    requires NoDuplicates(s) && x in s
    ensures |Filter(s, (y: int) => y != x)| == |s| - 1
    decreases |s|
  {
    if s[0] == x {
      assert x !in s[1..];
      FilterAll(s[1..], (y: int) => y != x);
    } else {
      FilterOutOne(s[1..], x);
    }
  }

  lemma DeselectFacts(sel: seq<int>, id: int)
    requires id in sel
    ensures IsSubsequence(Filter(sel, (x: int) => x != id), sel)
    ensures NoDuplicates(sel) ==> NoDuplicates(Filter(sel, (x: int) => x != id))
    ensures NoDuplicates(sel) ==> |Filter(sel, (x: int) => x != id)| == |sel| - 1
  {
    FilterIsSubsequence(sel, (x: int) => x != id);
    if NoDuplicates(sel) {
      FilterKeepsNoDuplicates(sel, (x: int) => x != id);
      FilterOutOne(sel, id);
    }
  }

  /** The selection after clicking "Seleccionar este" on product `id`: a
      selected product is deselected, another one is added while fewer than
      two are chosen, and the click is ignored otherwise. */
  function Pick2x95(sel: seq<int>, id: int): (r: seq<int>)
    ensures NoDuplicates(sel) && |sel| <= 2 ==> NoDuplicates(r) && |r| <= 2
    ensures id in sel ==> id !in r && forall x :: x != id ==> (x in r <==> x in sel)
    ensures id in sel && NoDuplicates(sel) ==> |r| == |sel| - 1
    ensures id in sel ==> IsSubsequence(r, sel)
    ensures id !in sel && |sel| < 2 ==> r == sel + [id]
    ensures id !in sel && |sel| >= 2 ==> r == sel
  {
    if id in sel then
      DeselectFacts(sel, id);
      Filter(sel, (x: int) => x != id)
    else if |sel| < 2 then sel + [id]
    else sel
  }

  /** The confirmation opens when the click makes the selection reach two. */
  predicate OpensConfirmation(sel: seq<int>, id: int) {
    id !in sel && |sel| < 2 && |sel + [id]| == 2
  }

  lemma OpensConfirmationIffReachesTwo(sel: seq<int>, id: int)
    ensures OpensConfirmation(sel, id) <==> |sel| < 2 && |Pick2x95(sel, id)| == 2
  {
  }

  /** `producto?.precio || 0`. */
  function ListedPrice(p: Option<Product>): (r: Cents)
    ensures p.None? ==> r == 0
    ensures p.Some? && Truthy(p.value.precio) ==> r == p.value.precio.value
    ensures p.Some? && !Truthy(p.value.precio) ==> r == 0
  {
    if p.Some? then AsNumber(p.value.precio) else 0
  }

  /** "Ahorras": the two listed prices (a missing one counted as 0) minus the
      price of the pair. */
  function Savings2x95(p1: Option<Product>, p2: Option<Product>): (r: Cents)
    ensures r + PRECIO_2X95 == ListedPrice(p1) + ListedPrice(p2)
  {
    ListedPrice(p1) + ListedPrice(p2) - PRECIO_2X95
  }

  /** `productos.find(p => p.id === id)`. */
  function ProductById(ps: seq<Product>, id: int): (r: Option<Product>)
    ensures r.Some? ==> r.value in ps && r.value.id == id
    ensures r.Some? ==> exists k :: 0 <= k < |ps| && ps[k] == r.value
                                    && forall j :: 0 <= j < k ==> ps[j].id != id
    ensures r.None? ==> forall p :: p in ps ==> p.id != id
  {
    Find(ps, (p: Product) => p.id == id)
  }

  // ===========================================================================
  // The shop page state
  // ===========================================================================

  class Storefront {
    var productos: seq<Product>
    var menuOpen: bool
    var categoriaActual: string
    var subcategoriaActual: Option<string>
    var searchTerm: string
    var tallaFiltro: string
    var marcaFiltro: string
    var seleccion2x95: seq<int>
    var mostrarModal2x95: bool

    /** The selection never holds more than two products, nor one twice. */
    ghost predicate Valid()
      reads this
    {
      |seleccion2x95| <= 2 && NoDuplicates(seleccion2x95)
    }

    function View(): CatalogView
      reads this
    {
      CatalogView(categoriaActual, subcategoriaActual, searchTerm, tallaFiltro, marcaFiltro)
    }

    /** The products the page lists. */
    function Visible(): (r: seq<Product>)
      reads this
      ensures IsSubsequence(r, productos)
      ensures forall p :: p in r <==> p in productos && InView(View(), p)
    {
      CatalogFilterSpec(productos, View());
      CatalogFilter(productos, View())
    }

    /** Opening the page: the "2x95" section, no filters, nothing picked. */
    constructor ()
      ensures Valid()
      ensures productos == [] && !menuOpen
      ensures categoriaActual == DOS_POR_95 && subcategoriaActual == None
      ensures searchTerm == "" && tallaFiltro == "" && marcaFiltro == ""
      ensures seleccion2x95 == [] && !mostrarModal2x95
    {
      productos := [];
      menuOpen := false;
      categoriaActual := DOS_POR_95;
      subcategoriaActual := None;
      searchTerm, tallaFiltro, marcaFiltro := "", "", "";
      seleccion2x95 := [];
      mostrarModal2x95 := false;
    }

    /** `cargarProductos`: the rows the query returned (`data || []`), or no
        change when it failed. */
    method ProductsLoaded(response: Result<Option<seq<Product>>>)
      modifies this
      ensures response.Success? ==> productos == response.value.GetOr([])
      ensures response.Failure? ==> productos == old(productos)
      ensures menuOpen == old(menuOpen) && View() == old(View())
      ensures seleccion2x95 == old(seleccion2x95) && mostrarModal2x95 == old(mostrarModal2x95)
    {
      if response.Success? {
        productos := response.value.GetOr([]);
      }
    }

    /** `handleCategoriaClick`: switch category and clear every other filter,
        close the menu and empty the 2x95 selection. */
    method CategoryClick(categoria: string)
      modifies this
      ensures Valid()
      ensures categoriaActual == categoria && subcategoriaActual == None
      ensures tallaFiltro == "" && marcaFiltro == "" && searchTerm == ""
      ensures !menuOpen && seleccion2x95 == []
      ensures productos == old(productos) && mostrarModal2x95 == old(mostrarModal2x95)
    {
      categoriaActual := categoria;
      subcategoriaActual := None;
      tallaFiltro := "";
      marcaFiltro := "";
      searchTerm := "";
      menuOpen := false;
      seleccion2x95 := [];
    }

    method ToggleMenu()
      modifies this`menuOpen
      ensures menuOpen == !old(menuOpen)
    {
      menuOpen := !menuOpen;
    }

    /** A click on a sports sub-category button. */
    method SelectSubcategory(sub: string)
      modifies this`subcategoriaActual
      ensures subcategoriaActual == Some(sub)
    {
      subcategoriaActual := Some(sub);
    }

    method SetSearchTerm(text: string)
      modifies this`searchTerm
      ensures searchTerm == text
    {
      searchTerm := text;
    }

    method SetSizeFilter(talla: string)
      modifies this`tallaFiltro
      ensures tallaFiltro == talla
    {
      tallaFiltro := talla;
    }

    method SetBrandFilter(marca: string)
      modifies this`marcaFiltro
      ensures marcaFiltro == marca
    {
      marcaFiltro := marca;
    }

    /** `handleSeleccionar2x95`: update the pick and open the confirmation
        when the pick reaches two products. */
    method Select2x95(id: int)
      requires Valid()
      modifies this`seleccion2x95, this`mostrarModal2x95
      ensures Valid()
      ensures seleccion2x95 == Pick2x95(old(seleccion2x95), id)
      ensures mostrarModal2x95 == (old(mostrarModal2x95) || OpensConfirmation(old(seleccion2x95), id))
    {
      if id in seleccion2x95 {
        seleccion2x95 := Filter(seleccion2x95, (x: int) => x != id);
      } else {
        if |seleccion2x95| < 2 {
          var nuevaSeleccion := seleccion2x95 + [id];
          seleccion2x95 := nuevaSeleccion;
          if |nuevaSeleccion| == 2 {
            mostrarModal2x95 := true;
          }
        }
      }
    }

    /** Closing the 2x95 confirmation forgets the pick. */
    method Close2x95()
      modifies this`seleccion2x95, this`mostrarModal2x95
      ensures Valid()
      ensures !mostrarModal2x95 && seleccion2x95 == []
    {
      mostrarModal2x95 := false;
      seleccion2x95 := [];
    }

    /** The two products the confirmation shows, looked up by id. */
    function PickedProducts(): (r: (Option<Product>, Option<Product>))
      reads this
      requires |seleccion2x95| == 2
      ensures r.0.Some? ==> r.0.value in productos && r.0.value.id == seleccion2x95[0]
      ensures r.1.Some? ==> r.1.value in productos && r.1.value.id == seleccion2x95[1]
      ensures r.0.None? <==> forall p :: p in productos ==> p.id != seleccion2x95[0]
      ensures r.1.None? <==> forall p :: p in productos ==> p.id != seleccion2x95[1]
    {
      (ProductById(productos, seleccion2x95[0]), ProductById(productos, seleccion2x95[1]))
    }
  }

  // ===========================================================================
  // The product modal: image carousel and click-to-zoom
  // ===========================================================================

  /** `producto.imagenes || [producto.imagen_url]`. */
  function ImagesOf(p: Product): (r: seq<Option<string>>)
    ensures p.imagenes.None? ==> r == [p.imagenUrl]
    ensures p.imagenes.Some? ==> |r| == |p.imagenes.value|
    ensures p.imagenes.Some? ==> forall i :: 0 <= i < |r| ==> r[i] == Some(p.imagenes.value[i])
  {
    if p.imagenes.Some? then
      seq(|p.imagenes.value|, i requires 0 <= i < |p.imagenes.value| => Some(p.imagenes.value[i]))
    else [p.imagenUrl]
  }

  /** The image after "next": the following one, wrapping to the first. */
  function NextIndex(i: nat, n: nat): (r: nat)
    requires i < n
    ensures r < n
    ensures r == if i + 1 < n then i + 1 else 0
  {
    (i + 1) % n
  }

  /** The image after "previous": the preceding one, wrapping to the last. */
  function PreviousIndex(i: nat, n: nat): (r: nat)
    requires i < n
    ensures r < n
    ensures r == if i > 0 then i - 1 else n - 1
  {
    (i - 1 + n) % n
  }

  lemma PreviousAfterNext(i: nat, n: nat)
    requires i < n
    ensures PreviousIndex(NextIndex(i, n), n) == i
  {
  }

  lemma NextAfterPrevious(i: nat, n: nat)
    requires i < n
    ensures NextIndex(PreviousIndex(i, n), n) == i
  {
  }

  /** The zoom level lies in 1..4 and the image is zoomed exactly from
      level 2 on. */
  predicate ZoomConsistent(zoom: bool, level: int) {
    1 <= level <= 4 && (zoom <==> level >= 2)
  }

  /** `handleImageClick` on (zoom, zoomLevel): zoom in to level 2, then step
      the level up to 4, then reset. */
  function ZoomAfterClick(zoom: bool, level: int): (r: (bool, int))
    requires ZoomConsistent(zoom, level)
    ensures ZoomConsistent(r.0, r.1)
    ensures r.0 ==> r.1 == level + 1
    ensures !r.0 <==> level == 4
  {
    if !zoom then (true, 2)
    else if level < 4 then (zoom, level + 1)
    else (false, 1)
  }

  /** Four clicks go 2, 3, 4 and back to unzoomed. */
  lemma ZoomCycle()
    ensures ZoomAfterClick(false, 1) == (true, 2)
    ensures ZoomAfterClick(true, 2) == (true, 3)
    ensures ZoomAfterClick(true, 3) == (true, 4)
    ensures ZoomAfterClick(true, 4) == (false, 1)
  {
  }

  class ProductModal {
    const producto: Product
    const imagenes: seq<Option<string>>
    var imagenActual: nat
    var zoom: bool
    var zoomLevel: int
    var panX: real
    var panY: real
    var originX: real
    var originY: real

    ghost predicate Valid()
      reads this
    {
      && (imagenActual < |imagenes| || imagenActual == 0)
      && ZoomConsistent(zoom, zoomLevel)
    }

    /** The state `resetZoom` leaves. */
    predicate Unzoomed()
      reads this
    {
      !zoom && zoomLevel == 1 && panX == 0.0 && panY == 0.0 && originX == 50.0 && originY == 50.0
    }

    constructor (p: Product)
      ensures producto == p && imagenes == ImagesOf(p)
      ensures imagenActual == 0 && Unzoomed() && Valid()
    {
      producto := p;
      imagenes := ImagesOf(p);
      imagenActual := 0;
      zoom := false;
      zoomLevel := 1;
      panX, panY := 0.0, 0.0;
      originX, originY := 50.0, 50.0;
    }

    method ResetZoom()
      modifies this
      ensures Unzoomed() && imagenActual == old(imagenActual)
    {
      zoom := false;
      zoomLevel := 1;
      panX, panY := 0.0, 0.0;
      originX, originY := 50.0, 50.0;
    }

    /** `siguienteImagen`. */
    method NextImage()
      requires Valid() && |imagenes| > 0
      modifies this
      ensures Valid() && Unzoomed()
      ensures imagenActual == NextIndex(old(imagenActual), |imagenes|)
    {
      imagenActual := (imagenActual + 1) % |imagenes|;
      ResetZoom();
    }

    /** `anteriorImagen`. */
    method PreviousImage()
      requires Valid() && |imagenes| > 0
      modifies this
      ensures Valid() && Unzoomed()
      ensures imagenActual == PreviousIndex(old(imagenActual), |imagenes|)
    {
      imagenActual := (imagenActual - 1 + |imagenes|) % |imagenes|;
      ResetZoom();
    }

    /** A click on the dot of image `idx`. */
    method ShowImage(idx: nat)
      requires Valid() && idx < |imagenes|
      modifies this
      ensures Valid() && Unzoomed() && imagenActual == idx
    {
      imagenActual := idx;
      ResetZoom();
    }

    /** `handleImageClick` at the point (`x`%, `y`%) of the picture. */
    method ImageClick(x: real, y: real)
      requires Valid()
      modifies this
      ensures Valid() && imagenActual == old(imagenActual)
      ensures (zoom, zoomLevel) == ZoomAfterClick(old(zoom), old(zoomLevel))
      ensures zoom ==> originX == x && originY == y && panX == old(panX) && panY == old(panY)
      ensures !zoom ==> Unzoomed()
    {
      if !zoom {
        zoom := true;
        zoomLevel := 2;
        originX, originY := x, y;
      } else if zoomLevel < 4 {
        zoomLevel := zoomLevel + 1;
        originX, originY := x, y;
      } else {
        ResetZoom();
      }
    }
  }
}

=== FILE: text.dfy ===
/** The JavaScript string operations the storefront relies on:
    `toLowerCase`, `includes`, `split` on one character, `join`, `trim`,
    `split(...).pop()`, and `Number`/`toString` on decimal numerals. */
module Text {

  // ---------------------------------------------------------------------------
  // Case folding
  // ---------------------------------------------------------------------------

  /** Capital letters whose lower-case form this model knows: ASCII A-Z and the
      Latin-1 capitals U+00C0..U+00DE except U+00D7 (the multiplication sign),
      which covers the Spanish letters Á É Í Ó Ú Ü Ñ. */
  predicate IsUpper(c: char) {
    ('A' <= c <= 'Z') || (0xC0 <= c as int <= 0xDE && c as int != 0xD7)
  }

  function LowerChar(c: char): char {
    if IsUpper(c) then (c as int + 32) as char else c
  }

  /** `s.toLowerCase()`, character by character. */
  function Lower(s: string): (r: string)
    ensures |r| == |s|
    ensures forall i :: 0 <= i < |r| ==> !IsUpper(r[i])
    ensures forall i :: 0 <= i < |s| && !IsUpper(s[i]) ==> r[i] == s[i]
    ensures forall i :: 0 <= i < |s| && IsUpper(s[i]) ==> r[i] as int == s[i] as int + 32
  {
    seq(|s|, i requires 0 <= i < |s| => LowerChar(s[i]))
  }

  /** `a` and `b` are the same letter up to case: equal, or one the capital
      of the other. */
  predicate SameUpToCase(a: char, b: char) {
    a == b
    || (IsUpper(a) && b as int == a as int + 32)
    || (IsUpper(b) && a as int == b as int + 32)
  }

  /** Texts that differ only in the case of their letters lower-case alike,
      so a test on lower-cased texts cannot tell them apart. */
  lemma LowerIgnoresCase(s: string, t: string)
    requires |s| == |t|
    requires forall i :: 0 <= i < |s| ==> SameUpToCase(s[i], t[i])
    ensures Lower(s) == Lower(t)
  {
    forall i | 0 <= i < |s|
      ensures Lower(s)[i] == Lower(t)[i]
    {
      assert SameUpToCase(s[i], t[i]);
    }
  }

  // ---------------------------------------------------------------------------
  // Substring search
  // ---------------------------------------------------------------------------

  predicate IsPrefix(p: string, s: string) {
    |p| <= |s| && s[..|p|] == p
  }

  predicate IsSuffix(p: string, s: string) {
    |p| <= |s| && s[|s| - |p|..] == p
  }

  /** `s.includes(sub)`. */
  predicate Contains(s: string, sub: string)
    ensures sub == [] ==> Contains(s, sub)
    ensures Contains(s, sub) ==> |sub| <= |s|
    decreases |s|
  {
    IsPrefix(sub, s) || (s != [] && Contains(s[1..], sub))
  }

  /** `sub` occurs in `s` starting at offset `i`. */
  predicate OccursAt(s: string, sub: string, i: int) {
    0 <= i <= |s| - |sub| && s[i..i + |sub|] == sub
  }

  /** `includes` holds exactly when `sub` occurs in `s` at some offset. */
  lemma ContainsIffOccurs(s: string, sub: string)
    ensures Contains(s, sub) <==> exists i :: OccursAt(s, sub, i)
  {
    if Contains(s, sub) {
      var i := ContainsAt(s, sub);
    } else {
      forall i
        ensures !OccursAt(s, sub, i)
      {
        if OccursAt(s, sub, i) {
          OccursContains(s, sub, i);
        }
      }
    }
  }

  /** An offset at which a text that `includes` `sub` holds it. */
  lemma {:induction false} ContainsAt(s: string, sub: string) returns (i: int)
    requires Contains(s, sub)
    ensures OccursAt(s, sub, i)
    decreases |s|
  {
    if IsPrefix(sub, s) {
      i := 0;
    } else {
      var j := ContainsAt(s[1..], sub);
      assert s[1..][j..j + |sub|] == s[j + 1..j + 1 + |sub|];
      i := j + 1;
    }
  }

  /** An occurrence at any offset makes `includes` hold. */
  lemma {:induction false} OccursContains(s: string, sub: string, i: int)
    requires OccursAt(s, sub, i)
    ensures Contains(s, sub)
    decreases |s|
  {
    if i > 0 {
      assert s[1..][i - 1..i - 1 + |sub|] == s[i..i + |sub|];
      OccursContains(s[1..], sub, i - 1);
    }
  }

  // ---------------------------------------------------------------------------
  // Whitespace and trim
  // ---------------------------------------------------------------------------

  /** The characters `trim` removes: the ECMAScript WhiteSpace and
      LineTerminator code points. */
  predicate IsSpace(c: char) {
    var n := c as int;
    n == 0x09 || n == 0x0A || n == 0x0B || n == 0x0C || n == 0x0D || n == 0x20
    || n == 0xA0 || n == 0x1680 || (0x2000 <= n <= 0x200A) || n == 0x2028
    || n == 0x2029 || n == 0x202F || n == 0x205F || n == 0x3000 || n == 0xFEFF
  }

  /** `s` has no whitespace at either end. */
  predicate IsTrimmed(s: string) {
    s == [] || (!IsSpace(s[0]) && !IsSpace(s[|s| - 1]))
  }

  /** `s.trimStart()`: the suffix left after dropping leading whitespace. */
  function TrimStart(s: string): (r: string)
    ensures |r| <= |s| && r == s[|s| - |r|..]
    ensures r == [] || !IsSpace(r[0])
    ensures forall i :: 0 <= i < |s| - |r| ==> IsSpace(s[i])
    decreases |s|
  {
    if s != [] && IsSpace(s[0]) then TrimStart(s[1..]) else s
  }

  /** `s.trimEnd()`: the prefix left after dropping trailing whitespace. */
  function TrimEnd(s: string): (r: string)
    ensures |r| <= |s| && r == s[..|r|]
    ensures r == [] || !IsSpace(r[|r| - 1])
    ensures forall i :: |r| <= i < |s| ==> IsSpace(s[i])
    decreases |s|
  {
    if s != [] && IsSpace(s[|s| - 1]) then TrimEnd(s[..|s| - 1]) else s
  }

  /** `r` is the block of `s` starting at `a` with only whitespace around it. */
  predicate TrimsTo(s: string, r: string, a: int) {
    0 <= a <= |s| - |r| && r == s[a..a + |r|]
    && (forall k :: 0 <= k < a ==> IsSpace(s[k]))
    && (forall k :: a + |r| <= k < |s| ==> IsSpace(s[k]))
  }

  /** `s.trim()`. */
  function Trim(s: string): (r: string)
    ensures IsTrimmed(r)
    ensures r == s <==> IsTrimmed(s)
    ensures exists a :: TrimsTo(s, r, a)
  {
    var t := TrimStart(s);
    assert IsTrimmed(s) ==> t == s;
    var r := TrimEnd(t);
    TrimmedBlock(s, t, r);
    r
  }

  /** Cutting leading whitespace off `s`, leaving `t`, and then trailing
      whitespace off `t`, leaving `r`, cuts only whitespace off a block of
      `s`. */
  lemma TrimmedBlock(s: string, t: string, r: string)
    requires |t| <= |s| && t == s[|s| - |t|..]
    requires forall i :: 0 <= i < |s| - |t| ==> IsSpace(s[i])
    requires |r| <= |t| && r == t[..|r|]
    requires forall i :: |r| <= i < |t| ==> IsSpace(t[i])
    ensures TrimsTo(s, r, |s| - |t|)
  {
    var a := |s| - |t|;
    assert r == s[a..a + |r|];
    forall k | a + |r| <= k < |s|
      ensures IsSpace(s[k])
    {
      assert s[k] == t[k - a];
    }
  }

  /** One leading blank does not survive `trim`. */
  lemma TrimLeadingBlank(x: string)
    ensures Trim([' '] + x) == Trim(x)
  {
    assert ([' '] + x)[1..] == x;
  }

  // ---------------------------------------------------------------------------
  // split, join, pop
  // ---------------------------------------------------------------------------

  /** `s.split(sep)` for a one-character separator: the pieces between the
      occurrences of `sep`, in order; the empty string gives one empty piece. */
  function Split(s: string, sep: char): (r: seq<string>)
    ensures |r| >= 1
    ensures forall k :: 0 <= k < |r| ==> sep !in r[k]
    decreases |s|
  {
    if s == [] then [[]]
    else
      var rest := Split(s[1..], sep);
      if s[0] == sep then [[]] + rest
      else [[s[0]] + rest[0]] + rest[1..]
  }

  /** `xs.join(sep)`. */
  function Join(xs: seq<string>, sep: string): (r: string)
    ensures xs != [] ==> IsPrefix(xs[0], r) && IsSuffix(xs[|xs| - 1], r)
    decreases |xs|
  {
    if xs == [] then []
    else if |xs| == 1 then xs[0]
    else xs[0] + sep + Join(xs[1..], sep)
  }

  /** Joining the pieces of a split with the separator gives back the text. */
  lemma {:induction false} JoinSplit(s: string, sep: char)
    ensures Join(Split(s, sep), [sep]) == s
    decreases |s|
  {
    if s != [] {
      var rest := Split(s[1..], sep);
      JoinSplit(s[1..], sep);
      if s[0] == sep {
        assert Split(s, sep)[1..] == rest;
      } else if |rest| == 1 {
        assert Join(Split(s, sep), [sep]) == [s[0]] + rest[0];
      } else {
        var pieces := Split(s, sep);
        assert pieces[1..] == rest[1..];
        assert Join(rest, [sep]) == rest[0] + [sep] + Join(rest[1..], [sep]);
      }
    }
  }

  /** Text without the separator is a single piece. */
  lemma {:induction false} SplitWithoutSeparator(a: string, sep: char)
    requires sep !in a
    ensures Split(a, sep) == [a]
    decreases |a|
  {
    if a != [] {
      SplitWithoutSeparator(a[1..], sep);
      assert [a[0]] + a[1..] == a;
    }
  }

  /** A separator after a separator-free prefix ends the first piece. */
  lemma {:induction false} SplitAtFirstSeparator(a: string, sep: char, b: string)
    requires sep !in a
    ensures Split(a + [sep] + b, sep) == [a] + Split(b, sep)
    decreases |a|
  {
    var s := a + [sep] + b;
    if a == [] {
      assert s[1..] == b;
    } else {
      assert s[1..] == a[1..] + [sep] + b;
      SplitAtFirstSeparator(a[1..], sep, b);
      assert [a[0]] + a[1..] == a;
    }
  }

  /** The last piece of a split is the part of `s` after its last separator. */
  lemma {:induction false} SplitLast(s: string, sep: char)
    ensures var ps := Split(s, sep); var r := ps[|ps| - 1];
      |r| <= |s| && s[|s| - |r|..] == r && (|r| == |s| || s[|s| - |r| - 1] == sep)
    decreases |s|
  {
    if s != [] {
      SplitLast(s[1..], sep);
      var rest := Split(s[1..], sep);
      var ps := Split(s, sep);
      var r' := rest[|rest| - 1];
      assert s[1..][|s| - 1 - |r'|..] == s[|s| - |r'|..];
      if s[0] == sep {
        assert ps[|ps| - 1] == r';
      } else if sep !in s[1..] {
        SplitWithoutSeparator(s[1..], sep);
        assert ps[|ps| - 1] == [s[0]] + s[1..] == s;
      } else {
        SeparatorSplits(s[1..], sep);
        assert ps[|ps| - 1] == r';
      }
    }
  }

  /** Text holding the separator splits into at least two pieces. */
  lemma SeparatorSplits(s: string, sep: char)
    requires sep in s
    ensures |Split(s, sep)| >= 2
  {
    JoinSplit(s, sep);
  }

  /** `s.split(sep).pop()`: the text after the last `sep`, or all of `s` when
      it has none. */
  function LastSegment(s: string, sep: char): (r: string)
    ensures |r| <= |s| && s[|s| - |r|..] == r
    ensures sep !in r
    ensures |r| == |s| || s[|s| - |r| - 1] == sep
  {
    SplitLast(s, sep);
    var pieces := Split(s, sep);
    pieces[|pieces| - 1]
  }

  /** The three properties of `LastSegment` determine it. */
  lemma LastSegmentUnique(s: string, sep: char, r: string)
    requires |r| <= |s| && s[|s| - |r|..] == r && sep !in r
    requires |r| == |s| || s[|s| - |r| - 1] == sep
    ensures r == LastSegment(s, sep)
  {
    var q := LastSegment(s, sep);
    assert |r| == |q|;
  }

  /** Whatever precedes the last separator does not matter. */
  lemma LastSegmentAfter(a: string, sep: char, b: string)
    requires sep !in b
    ensures LastSegment(a + [sep] + b, sep) == b
  {
    var s := a + [sep] + b;
    assert s[|s| - |b|..] == b;
    assert s[|s| - |b| - 1] == sep;
    LastSegmentUnique(s, sep, b);
  }

  // ---------------------------------------------------------------------------
  // Decimal numerals
  // ---------------------------------------------------------------------------

  function DigitChar(d: nat): char
    requires d < 10
  {
    ('0' as int + d) as char
  }

  function DigitValue(c: char): nat {
    if '0' <= c <= '9' then c as int - '0' as int else 0
  }

  /** `n.toString()` for a non-negative integer. */
  function NatToString(n: nat): (r: string)
    ensures |r| >= 1
    ensures forall i :: 0 <= i < |r| ==> '0' <= r[i] <= '9'
    decreases n
  {
    if n < 10 then [DigitChar(n)] else NatToString(n / 10) + [DigitChar(n % 10)]
  }

  /** `Number(s)` for a string of decimal digits. */
  function DecimalValue(s: string): nat
    decreases |s|
  {
    if s == [] then 0 else DecimalValue(s[..|s| - 1]) * 10 + DigitValue(s[|s| - 1])
  }

  /** Reading back a rendered number gives the number. */
  lemma {:induction false} DecimalValueOfNatToString(n: nat)
    ensures DecimalValue(NatToString(n)) == n
    decreases n
  {
    var s := NatToString(n);
    if n < 10 {
      assert s[..|s| - 1] == [];
    } else {
      assert s[..|s| - 1] == NatToString(n / 10);
      DecimalValueOfNatToString(n / 10);
    }
  }

  /** `s` is the canonical rendering of a non-negative integer. */
  predicate IsNumeral(s: string) {
    NatToString(DecimalValue(s)) == s
  }

  /** Numerals with the same value are the same string, so `Number` orders
      them without ties. */
  lemma NumeralInjective(s: string, t: string)
    requires IsNumeral(s) && IsNumeral(t) && DecimalValue(s) == DecimalValue(t)
    ensures s == t
  {
  }

  lemma NatToStringIsNumeral(n: nat)
    ensures IsNumeral(NatToString(n)) && DecimalValue(NatToString(n)) == n
  {
    DecimalValueOfNatToString(n);
  }
}
